=== FILE: README.md ===
# Meshtastic MQTT integration for Home Assistant: a Dafny model of its core

This project models the pure core of the `mtastic_mqtt` Home Assistant integration, which follows
Meshtastic mesh nodes through the service envelopes their gateways publish over MQTT. The model
has three parts.

1. **Packet conversion** (`proto.py`).
   - Five converters turn a decoded Position, Telemetry, User (node info), NeighborInfo or
     text payload into a `(type, attributes)` record.
   - A dispatch table keyed by port number selects the converter.
   - `convert_envelope_to_json` wraps the record with the `from`/`sender` header.
   - `try_encrypt_envelope` prepares the key and the nonce. The key is written in the
     URL-safe base 64 alphabet of section 5 of RFC 4648, and the one-byte key `0x01` selects
     the network-wide default key. The AES-CTR initial counter is the little-endian packet id
     followed by the little-endian sender.
2. **The per-device state machine** (`coordinator.py`).
   - The platform store: put-or-delete by truthiness, and get with a default.
   - The numeric node id parsed from the configured `!xxxxxxxx` id.
   - The top-level shallow merge of `_async_update_state`.
   - The JSON handler filters by sender, merges per type and rejects foreign node info.
   - The status handler.
3. **The configuration check and the entities' read side** (`config_flow.py`, `sensor.py`,
   `device_tracker.py`, `binary_sensor.py`). Each `native_value`, `latitude`, `battery_level`,
   `is_on` and `extra_state_attributes` is a pure function of the merged state.

Python's dynamic values are `Values.Value`, and a dictionary with string keys is `Values.State`.
Python's truthiness (`Values.Truthy`), its numeric `==` (`Values.Same`) and `{**a, **b}`
(`Values.Merge`) are each defined once and used throughout.

Three foreign components are parameters of the model:
- Protocol-buffer parsing and UTF-8 decoding are the function-valued fields of `Proto.Codec`.
- AES-CTR is a `Proto.Cipher`.
- The clock reading `dt.now().timestamp()` is a `real` argument of the JSON handler.

Modules, one file each:
- `Wrappers`, `Bytes`, `Values`.
- `LittleEndian`: `int.to_bytes(n, "little")` and its inverse.
- `Base64`: the encoder and a strict decoder of section 4 of RFC 4648.
- `Proto`, `Coordinator`, `ConfigFlow`.
- `Readings`: the section guard every entity uses.
- `Sensor`, `DeviceTracker`, `BinarySensor`.
- `Integration`: set-up from the form, and lemmas that hand the record built by
  `convert_envelope_to_json` to the coordinator's JSON handler and read the result through the
  entities.

Points where the code behaves differently than a reader might expect:
- The node-info check compares the envelope's `sender` with the `id` of the *merged* node-info
  map, not with the `id` of the incoming attributes alone (coordinator.py:92-96). A node-info
  payload without an `id` is therefore judged by the stored `id`.
- Meshtastic spells node ids as `!%08x` (`Coordinator.ParseNodeIdText`). `_validate` checks only
  the length and the leading `!` (config_flow.py:13), so an id with non-hexadecimal digits is
  accepted and then fails to parse. See Findings.
- `async_step_user` creates the entry with the form as `options` and an empty `data`
  (config_flow.py:57). `Coordinator.__init__` reads the id from `data` (coordinator.py:57), so
  every entry the form creates fails to set up. See Findings.
- `async_load` subscribes to `options["json_topic"]` (coordinator.py:72), but the form collects
  `pb_topic` and no `json_topic` (config_flow.py:27-40). In the model, set-up without a
  `json_topic` fails, as the program's `KeyError` does. The corrected flow therefore runs a
  coordinator only for options that carry a `json_topic`. The source does not say which topic was
  meant, so the model proposes no correction for this.

## Model

| member | source | states |
|---|---|---|
| Values.Merge | custom_components/mtastic_mqtt/coordinator.py:64-67 | `{**base, **update}`: the keys are the union; values from `update` win; keys only in `base` keep their values |
| Values.MergeIdempotent | custom_components/mtastic_mqtt/coordinator.py:92-95 | merging the same attributes a second time changes nothing |
| Values.MergeCommutesOnDisjointKeys | custom_components/mtastic_mqtt/coordinator.py:92-95 | merges of attribute maps with disjoint keys commute |
| LittleEndian.Encode | custom_components/mtastic_mqtt/proto.py:104-105 | `to_bytes(width, "little")` yields exactly `width` bytes for any value below 256^width |
| LittleEndian.DecodeEncode | custom_components/mtastic_mqtt/proto.py:104-105 | reading the little-endian bytes back gives the encoded number (proved by induction on the width) |
| LittleEndian.EncodeDecode | custom_components/mtastic_mqtt/proto.py:104-105 | every byte string is the little-endian encoding of the number it reads as |
| LittleEndian.EncodeInjective | custom_components/mtastic_mqtt/proto.py:104-105 | distinct numbers have distinct encodings of the same width |
| Base64.Decode | custom_components/mtastic_mqtt/proto.py:99 | a successful decode consumes whole 4-character groups and yields at most 3 bytes per group |
| Base64.DecodeEncode | custom_components/mtastic_mqtt/proto.py:99-102 | decoding the RFC 4648 encoding of any byte string gives the byte string back, padding included (by induction over 3-byte groups) |
| Base64.EncodeAlphabet | custom_components/mtastic_mqtt/proto.py:99 | encoded text uses only the standard alphabet and `=` |
| Proto.AsPosition | custom_components/mtastic_mqtt/proto.py:14-21 | type `position`; exactly the five position keys, all integers |
| Proto.PositionRoundTrip | custom_components/mtastic_mqtt/proto.py:14-21 | the payload carries every position field unchanged and unscaled: reading it back recovers the position |
| Proto.AsTelemetry | custom_components/mtastic_mqtt/proto.py:23-40 | device metrics give `device_metrics` with exactly the four device keys; environment metrics give `environment_metrics` with exactly the four environment keys; any other or no variant gives `(None, {})` |
| Proto.TelemetryRoundTrip | custom_components/mtastic_mqtt/proto.py:23-40 | every metric of the populated variant is carried unchanged |
| Proto.AsNodeInfo | custom_components/mtastic_mqtt/proto.py:42-47 | type `nodeinfo` with keys `id`, `shortname`, `longname`, and `id` is the user's id |
| Proto.NodeInfoRoundTrip | custom_components/mtastic_mqtt/proto.py:42-47 | `short_name`/`long_name` are carried as `shortname`/`longname` and the id is kept: the user is recoverable |
| Proto.AsNeighborInfo | custom_components/mtastic_mqtt/proto.py:49-54 | `neighbors_count` equals the length of `neighbors`, and the i-th entry describes the i-th neighbour |
| Proto.NeighborsRoundTrip | custom_components/mtastic_mqtt/proto.py:51 | a list of neighbour entries reads back as the neighbours, in order (by induction) |
| Proto.NeighborInfoRoundTrip | custom_components/mtastic_mqtt/proto.py:49-54 | the conversion loses no neighbour and keeps their order |
| Proto.AsTextMessage | custom_components/mtastic_mqtt/proto.py:56-60 | type `text_message` carrying the decoded text and the packet's `rx_time`, nothing else |
| Proto.TextMessageRoundTrip | custom_components/mtastic_mqtt/proto.py:56-60 | the text and the receive time are carried unchanged: reading the payload back recovers both |
| Proto.ConverterFor | custom_components/mtastic_mqtt/proto.py:62-68 | a converter exists exactly for the ports TEXT_MESSAGE_APP, POSITION_APP, NODEINFO_APP, TELEMETRY_APP and NEIGHBORINFO_APP |
| Proto.ConverterTableIsBijective | custom_components/mtastic_mqtt/proto.py:62-68 | each converter is registered under exactly one port number |
| Proto.Interpret | custom_components/mtastic_mqtt/proto.py:75-83 | the sub-message converts exactly when the decoder for its kind succeeds; the type is the one that belongs to the kind (for telemetry, one of the two metric types or none); a present type is non-empty and comes with a non-empty payload |
| Proto.ConvertEnvelope | custom_components/mtastic_mqtt/proto.py:70-93 | the result always has `from` and `sender`; `type`/`payload` appear only for a port in the table, with a non-empty type and payload; an unknown port gives exactly `{from, sender}`; conversion fails exactly when the port has a converter and its sub-message cannot be decoded |
| Proto.ConvertEnvelopeTyped | custom_components/mtastic_mqtt/proto.py:75-90 | for a port in the table, the result is the header plus `type`/`payload` exactly when the converter returned a type |
| Proto.DefaultKeyDecodes | custom_components/mtastic_mqtt/proto.py:95-102 | `DEFAULT_ENC_KEY` decodes to the 16-byte default key |
| Proto.NormalizeKeyText | custom_components/mtastic_mqtt/proto.py:99 | the substitution leaves no `_` or `-` and changes no other character |
| Proto.NormalizeUndoesUrlSafe | custom_components/mtastic_mqtt/proto.py:99 | normalising turns the URL-safe spelling of any encoding into the standard one and leaves a standard encoding alone |
| Proto.ResolveKey | custom_components/mtastic_mqtt/proto.py:99-102 | the key is the decoded key text; the single byte `0x01` is replaced by the default key; every other key is used as decoded; the result is never `[0x01]` |
| Proto.ResolveKeyOfEncoding | custom_components/mtastic_mqtt/proto.py:99-102 | a key written in either alphabet resolves to its own bytes, unless it is the marker `0x01` |
| Proto.ShortKeySelectsDefault | custom_components/mtastic_mqtt/proto.py:100-102 | the key text `AQ==` selects the default key |
| Proto.Nonce | custom_components/mtastic_mqtt/proto.py:104-106 | the initial counter block is 16 bytes |
| Proto.NonceHalves | custom_components/mtastic_mqtt/proto.py:104-106 | its first 8 bytes read little-endian as the packet id and its last 8 as the sender |
| Proto.NonceInjective | custom_components/mtastic_mqtt/proto.py:104-106 | distinct (packet id, sender) pairs give distinct nonces |
| Proto.NonceSwapDiffers | custom_components/mtastic_mqtt/proto.py:104-106 | swapping packet id and sender changes the nonce whenever they differ |
| Proto.DecryptEnvelope | custom_components/mtastic_mqtt/proto.py:97-114 | an undecodable key text fails; success means the cipher, run with the resolved key and the (id, from) nonce, produced a plaintext that parses as `Data`, and the packet now carries it as `decoded` |
| Proto.DecryptRecoversPlaintext | custom_components/mtastic_mqtt/proto.py:104-114 | with a counter-mode (involutive) cipher, decrypting what was encrypted under the packet's own nonce recovers the original `Data` |
| Coordinator.GetData | custom_components/mtastic_mqtt/coordinator.py:28-31 | the stored state for a stored key, otherwise the default; its law with `async_put_data` is Coordinator.GetAfterPut |
| Coordinator.PutData | custom_components/mtastic_mqtt/coordinator.py:33-41 | truthy data is stored under the key; falsy data removes the key; no other key changes |
| Coordinator.GetAfterPut | custom_components/mtastic_mqtt/coordinator.py:28-41 | reading back after a put gives the data, or the default if it was falsy; other keys read as before |
| Coordinator.PutOverwrites | custom_components/mtastic_mqtt/coordinator.py:33-41 | a later put to a key supersedes an earlier one |
| Coordinator.ParseNodeId | custom_components/mtastic_mqtt/coordinator.py:58 | `int(node_id[1:], 16)` succeeds exactly when at least one character follows the first and all of them are hexadecimal digits |
| Coordinator.HexValueOfText | custom_components/mtastic_mqtt/coordinator.py:58 | hexadecimal digits read back as the number they were written from (by induction on the width) |
| Coordinator.ParseNodeIdText | custom_components/mtastic_mqtt/coordinator.py:58 | the `!%08x` spelling of a 32-bit node number parses to that number |
| Coordinator.Init | custom_components/mtastic_mqtt/coordinator.py:57-61 | a coordinator exists exactly when the node id parses; its `_id` is the parsed number and its state is what the store holds |
| Coordinator.UpdateState | custom_components/mtastic_mqtt/coordinator.py:63-68 | top-level merge: updated keys take the new values, other keys keep theirs; the state is persisted under the node id; other devices' stored states are untouched |
| Coordinator.UpdateStateTwice | custom_components/mtastic_mqtt/coordinator.py:63-68 | two updates in a row equal one update with their merge |
| Coordinator.Accept | custom_components/mtastic_mqtt/coordinator.py:88-97 | accepted only with `type` and `payload` present, `from` equal to the node number, a dictionary payload, and for `nodeinfo` a `sender` equal to the merged `id`; the merged map is the old map for the type overridden by the payload |
| Coordinator.Stamped | custom_components/mtastic_mqtt/coordinator.py:99-102 | the committed update has exactly the keys `type` and `last_update`; the timestamp wins if the type is itself named `last_update` |
| Coordinator.OnJsonMessage | custom_components/mtastic_mqtt/coordinator.py:83-105 | a rejected message changes nothing; an accepted one sets the type's map and `last_update` and leaves every other key, `stat` included, untouched; persistence is preserved |
| Coordinator.StatSubscription | custom_components/mtastic_mqtt/coordinator.py:74-75 | the status topic is subscribed to exactly when `stat_topic` is configured and non-empty, and it is that topic |
| Coordinator.OnStatMessage | custom_components/mtastic_mqtt/coordinator.py:107-111 | with no filtering, `stat` becomes the raw payload, nothing else changes, and the state is persisted |
| Coordinator.OtherSenderIgnored | custom_components/mtastic_mqtt/coordinator.py:89-90 | a message whose `from` is not the node number leaves the coordinator unchanged |
| Coordinator.IncompleteMessageIgnored | custom_components/mtastic_mqtt/coordinator.py:88 | a message lacking `type` or `payload` leaves the coordinator unchanged |
| Coordinator.ForeignNodeInfoIgnored | custom_components/mtastic_mqtt/coordinator.py:96-97 | node info whose `sender` differs from the merged `id` leaves the coordinator unchanged |
| Coordinator.WellFormedMessageAccepted | custom_components/mtastic_mqtt/coordinator.py:88-97 | conversely, a well-formed message from the node is accepted unless it is foreign node info |
| Coordinator.ReacceptedUnchanged | custom_components/mtastic_mqtt/coordinator.py:92-95 | after a message is accepted, the same message is accepted again with the same merged map |
| Coordinator.RedeliveryIdempotent | custom_components/mtastic_mqtt/coordinator.py:83-102 | delivering a message twice at the same time equals delivering it once |
| Coordinator.RedeliveryOnlyRefreshesTimestamp | custom_components/mtastic_mqtt/coordinator.py:83-102 | redelivering a message later only advances `last_update` |
| Coordinator.AcceptAfter | custom_components/mtastic_mqtt/coordinator.py:92-95 | a message merges over whatever the previous message of the same type stored |
| Coordinator.InSequence | custom_components/mtastic_mqtt/coordinator.py:92-102 | two messages of one type in a row amount to one update with both payloads merged in order |
| Coordinator.DisjointUpdatesCommute | custom_components/mtastic_mqtt/coordinator.py:92-95 | two accepted messages of one type with disjoint payload keys can arrive in either order |
| ConfigFlow.Validate | custom_components/mtastic_mqtt/config_flow.py:12-19 | `invalid_id` and no data exactly when an `id` is present whose length is not 9 or whose first character is not `!`; otherwise no error and the input unchanged |
| ConfigFlow.UserStep | custom_components/mtastic_mqtt/config_flow.py:52-59 | the form is shown again with `invalid_id` exactly when `_validate` rejects it; otherwise the entry is titled by the form, holds the form as `options`, and has no `data` at all, so no `id` |
| ConfigFlow.UserStepStrict | custom_components/mtastic_mqtt/config_flow.py:52-59 | the corrected step: the strict check, and an entry whose `data` carries an `id` that parses whenever the form has one |
| ConfigFlow.ValidateAcceptsUnparsableId | custom_components/mtastic_mqtt/config_flow.py:13 | the check as written accepts `!zzzzzzzz`, which the coordinator cannot parse |
| ConfigFlow.ValidateStrict | custom_components/mtastic_mqtt/config_flow.py:12-19 | the corrected check: every accepted id parses as a node number |
| ConfigFlow.StrictRefinesValidate | custom_components/mtastic_mqtt/config_flow.py:13 | the corrected check accepts a subset of what the original accepts, and every `!%08x` id |
| Readings.TruthyAttributes | custom_components/mtastic_mqtt/sensor.py:134-139 | exactly the listed attributes with truthy values, copied unchanged (the loop's contract, by recursion) |
| Readings.SectionFrame | custom_components/mtastic_mqtt/sensor.py:38 | states that agree on a section read that section alike |
| Sensor.Battery | custom_components/mtastic_mqtt/sensor.py:37-41 | None without device metrics or for a level of at most 0; otherwise a level in (0, 100], clamped at 100 and otherwise unchanged |
| Sensor.BatteryIsClampedPositive | custom_components/mtastic_mqtt/sensor.py:37-41 | the battery sensor is the positive guard followed by the clamp |
| Sensor.Voltage | custom_components/mtastic_mqtt/sensor.py:56-60 | voltage is reported exactly when positive |
| Sensor.AirUtilTx | custom_components/mtastic_mqtt/sensor.py:75-79 | reported exactly when truthy: zero is dropped and negatives are reported |
| Sensor.ChannelUtilization | custom_components/mtastic_mqtt/sensor.py:94-98 | reported exactly when truthy: zero is dropped and negatives are reported |
| Sensor.UtilisationReportsNegatives | custom_components/mtastic_mqtt/sensor.py:75-79 | for a float utilisation, the truthiness guard reports it iff it is non-zero, the positive guard iff it is positive |
| Sensor.NeighborsCount | custom_components/mtastic_mqtt/sensor.py:153-157 | the count is reported exactly when non-negative, so zero neighbours is a value |
| Sensor.Temperature | custom_components/mtastic_mqtt/sensor.py:172-176 | reported exactly when positive; a temperature of at most 0 reads as None |
| Sensor.RelativeHumidity | custom_components/mtastic_mqtt/sensor.py:191-195 | reported exactly when positive |
| Sensor.BarometricPressure | custom_components/mtastic_mqtt/sensor.py:210-214 | reported exactly when positive |
| Sensor.GasResistance | custom_components/mtastic_mqtt/sensor.py:227-231 | reported exactly when positive |
| Sensor.LastUpdate | custom_components/mtastic_mqtt/coordinator.py:113-115 | None exactly before a `last_update` is stored, otherwise the stored timestamp (without the `datetime` conversion, see Left out); Integration.AcceptedMessageStampsLastUpdate relates it to the handler |
| Sensor.LastUpdateAttributes | custom_components/mtastic_mqtt/sensor.py:132-139 | the truthy ones of `id`, `longname`, `shortname` from `nodeinfo`; empty without node info |
| Sensor.DeviceMetricsFrame | custom_components/mtastic_mqtt/sensor.py:36-98 | the device-metric sensors read nothing but `device_metrics` |
| Sensor.EnvironmentMetricsFrame | custom_components/mtastic_mqtt/sensor.py:171-231 | the environment sensors read nothing but `environment_metrics` |
| DeviceTracker.Coordinate | custom_components/mtastic_mqtt/device_tracker.py:21-33 | None when the position or the coordinate is absent or zero; otherwise a non-zero value that is the stored integer divided by 10^7 |
| DeviceTracker.Latitude | custom_components/mtastic_mqtt/device_tracker.py:21-26 | the latitude guard and scaling of `latitude_i` |
| DeviceTracker.Longitude | custom_components/mtastic_mqtt/device_tracker.py:28-33 | the same guard and scaling for `longitude_i` |
| DeviceTracker.StoredCoordinates | custom_components/mtastic_mqtt/device_tracker.py:21-33 | stored non-zero integer coordinates read back divided by 10^7 |
| DeviceTracker.TrackerBattery | custom_components/mtastic_mqtt/device_tracker.py:35-40 | a positive level is reported as stored, without clamping |
| DeviceTracker.TrackerBatteryVersusSensor | custom_components/mtastic_mqtt/device_tracker.py:35-40 | the tracker and the battery sensor report in the same cases and agree up to the sensor's clamp at 100 |
| DeviceTracker.TrackerAttributes | custom_components/mtastic_mqtt/device_tracker.py:46-53 | the truthy ones of `altitude`, `ground_speed`, `sats_in_view`; empty without a position |
| DeviceTracker.ZeroAltitudeDropped | custom_components/mtastic_mqtt/device_tracker.py:46-53 | a zero altitude is not an attribute |
| BinarySensor.OnlineEntityCreated | custom_components/mtastic_mqtt/binary_sensor.py:10-13 | the online entity is added exactly when the coordinator subscribed to a status topic (Coordinator.StatSubscription), that is when a non-empty `stat_topic` is configured |
| BinarySensor.IsOn | custom_components/mtastic_mqtt/binary_sensor.py:22-26 | None without a non-empty `stat`; true exactly when `stat` is `online`; false for any other non-empty status |
| BinarySensor.IsOnFrame | custom_components/mtastic_mqtt/binary_sensor.py:22-26 | the online state reads nothing but `stat` |
| Integration.Start | custom_components/mtastic_mqtt/coordinator.py:56-72 | a created entry runs exactly when `data` holds an `id` that parses and `options` hold a `json_topic`; the coordinator is for that id and starts from the stored state |
| Integration.SetUp | custom_components/mtastic_mqtt/config_flow.py:52-57 | as written, no submitted form yields a running coordinator: a rejected form is shown again, and every accepted one fails to set up |
| Integration.SetUpStrict | custom_components/mtastic_mqtt/config_flow.py:52-57 | with the corrected flow, an accepted form runs a coordinator for its id exactly when it has an id and a `json_topic` |
| Integration.CreatedEntryFailsSetUp | custom_components/mtastic_mqtt/config_flow.py:57 | a form for `!0a1b2c3d` that also carries a `json_topic` fails to set up as written and runs node 0x0a1b2c3d with the corrected flow; a form with only the keys the schema collects fails under both flows, for lack of a `json_topic` |
| Integration.UnparsableIdFailsSetUp | custom_components/mtastic_mqtt/coordinator.py:58 | even with the id in the entry's `data`, `!zzzzzzzz` passes `_validate` and then fails set-up; the corrected form rejects it |
| Integration.EnvelopeFromOtherNodeIgnored | custom_components/mtastic_mqtt/coordinator.py:89-90 | a converted envelope from another node leaves the coordinator unchanged |
| Integration.UnknownPortIgnored | custom_components/mtastic_mqtt/proto.py:91-93 | an envelope on an unknown port converts, and then leaves the coordinator unchanged |
| Integration.OwnRecordAccepted | custom_components/mtastic_mqtt/coordinator.py:88-95 | a typed record from the node itself is accepted, merged over the stored map of its type |
| Integration.PositionReachesTracker | custom_components/mtastic_mqtt/device_tracker.py:21-33 | a position report from the node reaches the tracker as `latitude_i / 10^7` and `longitude_i / 10^7` |
| Integration.PositionStored | custom_components/mtastic_mqtt/coordinator.py:99-102 | an accepted position map is what the tracker reads |
| Integration.NeighborInfoReachesSensor | custom_components/mtastic_mqtt/sensor.py:153-157 | a neighbour report from the node makes the neighbour-count sensor show the number of neighbours in it, zero included |
| Integration.NeighborsStored | custom_components/mtastic_mqtt/coordinator.py:99-102 | an accepted neighbour map holding a count is what the neighbour-count sensor reads |
| Integration.NewYorkPosition | custom_components/mtastic_mqtt/device_tracker.py:21-33 | `latitude_i` 407128000 and `longitude_i` -740060000 read as 40.7128 and -74.006 |
| Integration.NodeInfoAcceptedIffSelfReported | custom_components/mtastic_mqtt/coordinator.py:96-97 | node info from the node is kept exactly when the relaying gateway is the node it describes |
| Integration.EnvironmentKeepsDeviceMetrics | custom_components/mtastic_mqtt/coordinator.py:99-102 | environment telemetry leaves every device-metric reading as it was |
| Integration.OnlineStatusTurnsOn | custom_components/mtastic_mqtt/coordinator.py:107-111 | after a status message the online state is true for `online`, false for another non-empty status, unknown for an empty one |
| Integration.JsonMessageKeepsOnline | custom_components/mtastic_mqtt/binary_sensor.py:22-26 | a JSON message of a type other than `stat` does not change the online state |
| Integration.AcceptedMessageStampsLastUpdate | custom_components/mtastic_mqtt/coordinator.py:99-102 | every accepted message sets the last update to the time it was handled |

## Left out

- AES-CTR (proto.py:108-110), protobuf `ParseFromString`/`CopyFrom` (proto.py:77-78, 112-114)
  and UTF-8 decoding (proto.py:81) are foreign library calls. They are parameters of the model
  (`Proto.Cipher`, `Proto.Codec`), and their failures are the `None` results.
- Proto.ResolveKey: Python's `base64.b64decode` without `validate=True` silently discards
  characters outside the alphabet. The model's decoder is the strict one of RFC 4648, so
  malformed key text that Python would still decode is an error here.
- An AES key of the wrong length is rejected by the cipher library. In the model that is the
  cipher parameter returning `None`.
- Coordinator.ParseNodeId: Python's `int(s, 16)` also accepts surrounding whitespace, a sign,
  a `0x` prefix, underscores between digits, and Unicode decimal digits from other scripts
  (`int("١٢", 16) == 18`). The model accepts plain ASCII hexadecimal digits only.
- Coordinator.Accept: a JSON `type` that is not a string is treated as rejected, and the state
  is left unchanged. Python stores the payload under a non-string key, which the state type
  `map<string, Value>` cannot hold and no entity reads. Python also refreshes `last_update` in
  the same update (coordinator.py:99-102), so the Last Update sensor (sensor.py:123-130)
  changes, while in the model it does not.
- Values.Same: the model coerces int, float and bool only at the top level. Python's `==` also
  coerces them inside lists and dicts (`[1] == [1.0]`, `{"a": True} == {"a": 1}`), which
  `Values.Same` treats as unequal. The values the core compares (`from`, `sender`, `id`) are
  scalars, so this does not affect it.
- Floats are modelled as exact reals, so `value / 10000000.0` is exact division. The rounding
  of the source's floating-point arithmetic is not modelled.
- Missing or non-numeric metric values raise `TypeError` in the `> 0` comparisons (for example
  sensor.py:39), and a truthy non-dictionary section raises `AttributeError` on `.get`. The
  entity functions require that neither happens (`Readings.Comparable`, `Readings.Gettable`,
  `DeviceTracker.CoordinateReadable`) rather than inventing a result.
- Sensor.LastUpdate: the `datetime.fromtimestamp` conversion in `Coordinator.last_update`
  (coordinator.py:115) is left out, so the model returns the raw stored timestamp.
- Coordinator.Node: the program has one `Platform` store shared by every coordinator
  (`__init__.py:28-29`, `51-53`). In the model each node carries its own view of the store, so
  two entries configured with the same node id, which nothing in config_flow.py prevents, are
  not shown writing to one shared key. What the model does state is that a node's update leaves
  every other key of the store unchanged (`Coordinator.UpdateState`).
- Nothing in the source calls `convert_envelope_to_json` or `try_encrypt_envelope`. The
  coordinator subscribes only to the JSON topic (coordinator.py:72). The Integration lemmas
  about envelopes assume that the JSON handler receives the record `convert_envelope_to_json`
  builds, as a gateway publishing JSON would send it.
- The options flow (config_flow.py:65-82) runs `_validate` again and replaces the entry's
  `options`. It is not modelled beyond `ConfigFlow.Validate`, and the entry's `data` stays
  empty.
- The MQTT subscriptions themselves, unsubscription, loading and saving `storage.Store`, and
  the rest of the async coordinator lifecycle (coordinator.py:21-26, 42, 77-81) are left out.
  Of `async_load` the model keeps only which keys it reads (`Integration.Start`,
  `Coordinator.StatSubscription`). Of `__init__.py` it keeps the order of set-up
  (`Integration.Start`); unloading, the update listener and forwarding to the entity platforms
  are left out. So is the JSON text parsing of `json_loads_object`. The handler receives an
  already-parsed object, and its bare `except:` is the rejected (`None`) outcome of
  `Coordinator.Accept`.
- Entity metadata (names, unique ids, icons, device classes, `device_info`) and the form
  schema `_create_schema` are UI and are left out. The duplicated `_TelemetryChannelUtil` class
  in sensor.py defines one entity and is modelled once.

## Findings

| source | as written | input that shows it | evidently intended | confidence | as-written member | corrected member |
|---|---|---|---|---|---|---|
| custom_components/mtastic_mqtt/config_flow.py:13 | `_validate` accepts any 9-character id that starts with `!`. Once the entry carries the id (next row), `Coordinator.__init__` runs `int(node_id[1:], 16)` (coordinator.py:58), which raises for non-hexadecimal characters, so the entry is created and fails to set up | `{"id": "!zzzzzzzz"}` | reject, with `invalid_id`, an id whose last eight characters are not hexadecimal digits, so that every accepted id parses as a node number | medium (not executed) | ConfigFlow.ValidateAcceptsUnparsableId | ConfigFlow.ValidateStrict |
| custom_components/mtastic_mqtt/config_flow.py:57 | `async_create_entry(title=..., options=data, data={})` stores the form only as `options`, while `Coordinator.__init__` reads `entry.as_dict()["data"]["id"]` (coordinator.py:57), which raises `KeyError` for every entry the form creates | `{"title": "Base", "id": "!0a1b2c3d", "pb_topic": "msh/2/e"}` | the entry's `data` carries the validated form, so that the coordinator finds the configured id | medium (not executed) | Integration.SetUp | Integration.SetUpStrict |

=== FILE: base64.dfy ===
/**
 * Base 64 encoding with the standard alphabet of section 4 of RFC 4648, and the
 * URL- and filename-safe alphabet of section 5 of RFC 4648 that differs from it
 * only in the two characters `-` (for `+`) and `_` (for `/`).
 *
 * Decode is strict: the input is a sequence of complete 4-character groups, only
 * the last of which may end in one or two `=` pad characters.
 */
module Base64 {
  import opened Wrappers
  import opened Bytes

  /** The character for a 6-bit group (Table 1 of RFC 4648). */
  function SextetChar(s: nat): (c: char)
    requires s < 64
  {
    if s < 26 then ('A' as int + s) as char
    else if s < 52 then ('a' as int + (s - 26)) as char
    else if s < 62 then ('0' as int + (s - 52)) as char
    else if s == 62 then '+'
    else '/'
  }

  /** The 6-bit group a character stands for, or None when it is not in the alphabet. */
  function CharSextet(c: char): (r: Option<nat>)
    ensures r.Some? ==> r.value < 64 && SextetChar(r.value) == c
  {
    if 'A' <= c <= 'Z' then Some(c as int - 'A' as int)
    else if 'a' <= c <= 'z' then Some(c as int - 'a' as int + 26)
    else if '0' <= c <= '9' then Some(c as int - '0' as int + 52)
    else if c == '+' then Some(62)
    else if c == '/' then Some(63)
    else None
  }

  /** Every 6-bit group has exactly one character, and it reads back as that group. */
  lemma SextetRoundTrip(s: nat)
    requires s < 64
    ensures CharSextet(SextetChar(s)) == Some(s)
  {
  }

  /** A character of the standard alphabet. */
  predicate InAlphabet(c: char) {
    CharSextet(c).Some?
  }

  /** The four 6-bit groups of the 24 bits `x0 x1 x2`, most significant first. */
  function Sextets(x0: nat, x1: nat, x2: nat): (r: (nat, nat, nat, nat))
    requires x0 < 256 && x1 < 256 && x2 < 256
    ensures r.0 < 64 && r.1 < 64 && r.2 < 64 && r.3 < 64
  {
    (x0 / 4, (x0 % 4) * 16 + x1 / 16, (x1 % 16) * 4 + x2 / 64, x2 % 64)
  }

  /** The four characters of three bytes `b0 b1 b2` (a full 24-bit group). */
  function EncodeGroup(b0: byte, b1: byte, b2: byte): (r: string)
    ensures |r| == 4
  {
    var c := Sextets(b0, b1, b2);
    [SextetChar(c.0), SextetChar(c.1), SextetChar(c.2), SextetChar(c.3)]
  }

  /** The encoding of a byte string; a final group of one or two bytes is padded with `=`. */
  function Encode(bs: seq<byte>): (r: string)
    ensures |r| == 4 * ((|bs| + 2) / 3)
    decreases |bs|
  {
    if bs == [] then []
    else if |bs| == 1 then EncodeGroup(bs[0], 0, 0)[..2] + "=="
    else if |bs| == 2 then EncodeGroup(bs[0], bs[1], 0)[..3] + "="
    else EncodeGroup(bs[0], bs[1], bs[2]) + Encode(bs[3..])
  }

  /** A character of the standard alphabet as section 5 of RFC 4648 spells it. */
  function UrlSafeChar(c: char): char {
    if c == '+' then '-' else if c == '/' then '_' else c
  }

  /** Standard-alphabet text rewritten in the URL- and filename-safe alphabet. */
  function ToUrlSafe(s: string): (r: string)
    ensures |r| == |s|
    ensures forall i :: 0 <= i < |s| ==> r[i] == UrlSafeChar(s[i])
  {
    seq(|s|, i requires 0 <= i < |s| => UrlSafeChar(s[i]))
  }

  /** Encoded text uses only the standard alphabet and the pad character. */
  lemma {:induction false} EncodeAlphabet(bs: seq<byte>)
    ensures forall i :: 0 <= i < |Encode(bs)| ==> InAlphabet(Encode(bs)[i]) || Encode(bs)[i] == '='
    decreases |bs|
  {
    if bs != [] {
      var b1: byte := if |bs| > 1 then bs[1] else 0;
      var b2: byte := if |bs| > 2 then bs[2] else 0;
      GroupChars(bs[0], b1, b2);
      if |bs| > 3 {
        EncodeAlphabet(bs[3..]);
      }
    }
  }

  /** The three bytes carried by the 6-bit groups `c0 c1 c2 c3`. */
  function GroupBytes(c0: nat, c1: nat, c2: nat, c3: nat): (r: seq<byte>)
    requires c0 < 64 && c1 < 64 && c2 < 64 && c3 < 64
    ensures |r| == 3
  {
    [(c0 * 4 + c1 / 16) as byte, ((c1 % 16) * 16 + c2 / 4) as byte, ((c2 % 4) * 64 + c3) as byte]
  }

  /** A group of four characters, none of them padding. */
  function DecodeFull(q: string): (r: Option<seq<byte>>)
    requires |q| == 4
    ensures r.Some? ==> |r.value| == 3
    ensures r.Some? <==> forall i :: 0 <= i < 4 ==> InAlphabet(q[i])
  {
    match (CharSextet(q[0]), CharSextet(q[1]), CharSextet(q[2]), CharSextet(q[3]))
    case (Some(c0), Some(c1), Some(c2), Some(c3)) => Some(GroupBytes(c0, c1, c2, c3))
    case _ => None
  }

  /** The last group of four characters, which may end in `==` (one byte) or `=` (two bytes). */
  function DecodeLast(q: string): (r: Option<seq<byte>>)
    requires |q| == 4
    ensures r.Some? ==> 1 <= |r.value| <= 3
    ensures r.Some? ==> InAlphabet(q[0]) && InAlphabet(q[1])
  {
    if q[2] == '=' && q[3] == '=' then
      match (CharSextet(q[0]), CharSextet(q[1]))
      case (Some(c0), Some(c1)) => Some(GroupBytes(c0, c1, 0, 0)[..1])
      case _ => None
    else if q[3] == '=' then
      match (CharSextet(q[0]), CharSextet(q[1]), CharSextet(q[2]))
      case (Some(c0), Some(c1), Some(c2)) => Some(GroupBytes(c0, c1, c2, 0)[..2])
      case _ => None
    else DecodeFull(q)
  }

  /** Strict decoding of standard-alphabet base 64 text; None is Python's `binascii.Error`. */
  function Decode(s: string): (r: Option<seq<byte>>)
    ensures r.Some? ==> |s| % 4 == 0 && |r.value| <= 3 * (|s| / 4)
    decreases |s|
  {
    if s == [] then Some([])
    else if |s| < 4 then None
    else if |s| == 4 then DecodeLast(s)
    else
      match DecodeFull(s[..4])
      case None => None
      case Some(group) =>
        match Decode(s[4..])
        case None => None
        case Some(rest) => Some(group + rest)
  }

  /** Each character of an encoded group reads back as its 6-bit group. */
  lemma GroupChars(b0: byte, b1: byte, b2: byte)
    ensures var q, c := EncodeGroup(b0, b1, b2), Sextets(b0, b1, b2);
      CharSextet(q[0]) == Some(c.0) && CharSextet(q[1]) == Some(c.1) &&
      CharSextet(q[2]) == Some(c.2) && CharSextet(q[3]) == Some(c.3)
  {
    var c := Sextets(b0, b1, b2);
    SextetRoundTrip(c.0);
    SextetRoundTrip(c.1);
    SextetRoundTrip(c.2);
    SextetRoundTrip(c.3);
  }

  /** Regrouping the four 6-bit groups of three bytes into bytes gives the three bytes. */
  lemma GroupBytesOfSextets(b0: byte, b1: byte, b2: byte)
    ensures var c := Sextets(b0, b1, b2);
      GroupBytes(c.0, c.1, c.2, c.3) == [b0, b1, b2]
  {
    var x0, x1, x2 := b0, b1, b2;
    GroupArithmetic(x0, x1, x2);
  }

  /** The bytes of a full group survive encoding and decoding. */
  lemma GroupRoundTrip(b0: byte, b1: byte, b2: byte)
    ensures DecodeFull(EncodeGroup(b0, b1, b2)) == Some([b0, b1, b2])
  {
    GroupChars(b0, b1, b2);
    GroupBytesOfSextets(b0, b1, b2);
  }

  /** The bit shuffling of one 24-bit group, on integers. */
  lemma GroupArithmetic(x0: nat, x1: nat, x2: nat)
    requires x0 < 256 && x1 < 256 && x2 < 256
    ensures var c := Sextets(x0, x1, x2);
      c.0 * 4 + c.1 / 16 == x0 && (c.1 % 16) * 16 + c.2 / 4 == x1 && (c.2 % 4) * 64 + c.3 == x2
  {
  }

  /** A single final byte is encoded as two characters and `==`, and decodes back. */
  lemma DecodeEncodeOne(b0: byte)
    ensures Decode(Encode([b0])) == Some([b0])
  {
    var q, c := EncodeGroup(b0, 0, 0), Sextets(b0, 0, 0);
    var s := Encode([b0]);
    assert s == [q[0], q[1], '=', '='];
    GroupChars(b0, 0, 0);
    GroupArithmetic(b0, 0, 0);
    var r := GroupBytes(c.0, c.1, 0, 0);
    assert r[0] == b0;
    assert DecodeLast(s) == Some(r[..1]);
    assert r[..1] == [b0];
    assert Decode(s) == DecodeLast(s);
  }

  /** Two final bytes are encoded as three characters and `=`, and decode back. */
  lemma DecodeEncodeTwo(b0: byte, b1: byte)
    ensures Decode(Encode([b0, b1])) == Some([b0, b1])
  {
    var q, c := EncodeGroup(b0, b1, 0), Sextets(b0, b1, 0);
    var s := Encode([b0, b1]);
    assert s == [q[0], q[1], q[2], '='];
    GroupChars(b0, b1, 0);
    GroupArithmetic(b0, b1, 0);
    var r := GroupBytes(c.0, c.1, c.2, 0);
    assert r[0] == b0 && r[1] == b1;
    assert DecodeLast(s) == Some(r[..2]);
    assert r[..2] == [b0, b1];
    assert Decode(s) == DecodeLast(s);
  }

  /** A full group followed by more groups decodes to the group's bytes followed by the rest. */
  lemma DecodeGroupThen(head: string, tail: string, group: seq<byte>, rest: seq<byte>)
    requires |head| == 4 && |tail| >= 4
    requires DecodeFull(head) == Some(group) && Decode(tail) == Some(rest)
    ensures Decode(head + tail) == Some(group + rest)
  {
    var s := head + tail;
    assert s[..4] == head && s[4..] == tail;
  }

  /** Three bytes are encoded as one unpadded group, and decode back. */
  lemma DecodeEncodeThree(bs: seq<byte>)
    requires |bs| == 3
    ensures Decode(Encode(bs)) == Some(bs)
  {
    var head := EncodeGroup(bs[0], bs[1], bs[2]);
    assert Encode(bs) == head + Encode(bs[3..]);
    assert Encode(bs[3..]) == [];
    assert Encode(bs) == head;
    GroupRoundTrip(bs[0], bs[1], bs[2]);
    GroupChars(bs[0], bs[1], bs[2]);
    assert head[2] != '=' && head[3] != '=';
    assert Decode(head) == DecodeLast(head) == DecodeFull(head);
    assert [bs[0], bs[1], bs[2]] == bs;
  }

  /** Decoding the encoding of any byte string gives the byte string back. */
  lemma {:induction false} DecodeEncode(bs: seq<byte>)
    ensures Decode(Encode(bs)) == Some(bs)
    decreases |bs|
  {
    if bs == [] {
    } else if |bs| == 1 {
      DecodeEncodeOne(bs[0]);
      assert [bs[0]] == bs;
    } else if |bs| == 2 {
      DecodeEncodeTwo(bs[0], bs[1]);
      assert [bs[0], bs[1]] == bs;
    } else if |bs| == 3 {
      DecodeEncodeThree(bs);
    } else {
      DecodeEncode(bs[3..]);
      DecodeEncodeStep(bs);
    }
  }

  /** Encoding more than three bytes emits the first full group, then the encoding of the rest. */
  lemma EncodeSplit(bs: seq<byte>)
    requires |bs| > 3
    ensures Encode(bs) == EncodeGroup(bs[0], bs[1], bs[2]) + Encode(bs[3..])
    ensures |Encode(bs[3..])| >= 4
  {
  }

  /** A byte string is its first three bytes followed by the rest. */
  lemma FirstThree(bs: seq<byte>)
    requires |bs| > 3
    ensures [bs[0], bs[1], bs[2]] + bs[3..] == bs
  {
    assert [bs[0], bs[1], bs[2]] == bs[..3];
  }

  /** The inductive step: a leading full group decodes back in front of the rest. */
  lemma DecodeEncodeStep(bs: seq<byte>)
    requires |bs| > 3
    requires Decode(Encode(bs[3..])) == Some(bs[3..])
    ensures Decode(Encode(bs)) == Some(bs)
  {
    EncodeSplit(bs);
    GroupRoundTrip(bs[0], bs[1], bs[2]);
    DecodeGroupThen(EncodeGroup(bs[0], bs[1], bs[2]), Encode(bs[3..]), [bs[0], bs[1], bs[2]], bs[3..]);
    FirstThree(bs);
  }
}

=== FILE: binary_sensor.dfy ===
/**
 * The connectivity entity of `binary_sensor.py`: created only when a status topic
 * is configured, and on exactly when the last status message was `online`.
 */
module BinarySensor {
  import opened Wrappers
  import opened Values
  import opened Readings
  import Coordinator

  /**
   * `async_setup_entry`: the entity is added when `coordinator._stat_subs` is set, that is
   * when `async_load` subscribed to the status topic of the entry's options.
   */
  function OnlineEntityCreated(options: map<string, string>): (r: bool)
    ensures r <==> "stat_topic" in options && |options["stat_topic"]| > 0
  {
    Coordinator.StatSubscription(options).Some?
  }

  /** `_Online.is_on`: unknown without a non-empty status, otherwise whether it is `online`. */
  function IsOn(data: State): (r: Option<bool>)
    ensures r.None? <==> "stat" !in data || !Truthy(data["stat"])
    ensures r == Some(true) <==> "stat" in data && data["stat"] == Str("online")
    ensures r == Some(false) <==> "stat" in data && Truthy(data["stat"]) && data["stat"] != Str("online")
  {
    match Section(data, "stat")
    case None => None
    case Some(stat) => Some(stat == Str("online"))
  }

  /** The online state reads nothing but `stat`. */
  lemma IsOnFrame(d1: State, d2: State)
    requires Get(d1, "stat") == Get(d2, "stat")
    ensures IsOn(d1) == IsOn(d2)
  {
    SectionFrame(d1, d2, "stat");
  }
}

=== FILE: bytes.dfy ===
/** Octets as the protocol buffers, the base 64 codec and the cipher see them. */
module Bytes {

  /** One octet: Python's `bytes` elements. */
  type byte = x: int | 0 <= x < 256
}

=== FILE: config_flow.dfy ===
/**
 * The configuration flow of `config_flow.py`: the node-id check `_validate`, the entry
 * `async_step_user` creates from the form, and the corrected check and entry under which
 * every accepted id reaches the coordinator and parses.
 */
module ConfigFlow {
  import opened Wrappers
  import Coordinator

  /** The `(error, data)` pair `_validate` returns; the error is a translation key. */
  datatype Validation = Validation(error: Option<string>, data: Option<map<string, string>>)

  const InvalidId: string := "invalid_id"

  /** The shape `_validate` demands of an id: nine characters, the first of them `!`. */
  predicate WellShapedId(id: string) {
    |id| == 9 && id[0] == '!'
  }

  /** `_validate` as written: only the length and the leading `!` of the id are checked. */
  function Validate(input: map<string, string>): (r: Validation)
    ensures r.error.Some? <==> r.data.None?
    ensures r.error.Some? ==> r.error.value == InvalidId
    ensures r.data.Some? ==> r.data.value == input
    ensures r.error.Some? <==> "id" in input && !WellShapedId(input["id"])
  {
    if "id" in input && (|input["id"]| != 9 || input["id"][0] != '!') then Validation(Some(InvalidId), None)
    else Validation(None, Some(input))
  }

  /** A config entry as `entry.as_dict()` shows it: its title, its `data` and its `options`. */
  datatype Entry = Entry(title: string, data: map<string, string>, options: map<string, string>)

  /** What `async_step_user` returns for a submitted form. */
  datatype FlowResult =
    | ShowForm(error: string)    // `async_show_form(..., errors=dict(base=err))`: the form again
    | CreateEntry(entry: Entry)  // `async_create_entry(...)`

  /**
   * `async_step_user` for a submitted form, as written: the validated form becomes the
   * entry's `options`, and its `data` is empty. The form's schema marks `title` as required,
   * so every submitted form carries one for `data["title"]`.
   */
  function UserStep(input: map<string, string>): (r: FlowResult)
    requires "title" in input
    ensures r.ShowForm? <==> Validate(input).error.Some?
    ensures r.ShowForm? ==> r.error == InvalidId
    ensures r.CreateEntry? ==> r.entry.title == input["title"] && r.entry.options == input
    ensures r.CreateEntry? ==> r.entry.data.Keys == {}
  {
    var v := Validate(input);
    if v.error.Some? then ShowForm(v.error.value)
    else CreateEntry(Entry(input["title"], map[], v.data.value))
  }

  /**
   * The corrected `async_step_user`: the strict check, and an entry whose `data` carries the
   * validated form as well, so that the coordinator finds the `id` it reads from `data`.
   */
  function UserStepStrict(input: map<string, string>): (r: FlowResult)
    requires "title" in input
    ensures r.ShowForm? <==> ValidateStrict(input).error.Some?
    ensures r.ShowForm? ==> r.error == InvalidId
    ensures r.CreateEntry? ==> r.entry.title == input["title"] && r.entry.options == input
    ensures r.CreateEntry? && "id" in input ==>
      "id" in r.entry.data && Coordinator.ParseNodeId(r.entry.data["id"]).Some?
  {
    var v := ValidateStrict(input);
    if v.error.Some? then ShowForm(v.error.value)
    else CreateEntry(Entry(input["title"], v.data.value, v.data.value))
  }

  /** An id the form accepts, yet `int(id[1:], 16)` in the coordinator rejects. */
  lemma ValidateAcceptsUnparsableId()
    ensures Validate(map["id" := "!zzzzzzzz"]).error.None?
    ensures Coordinator.ParseNodeId("!zzzzzzzz").None?
  {
    assert !Coordinator.IsHexDigit("!zzzzzzzz"[1]);
  }

  /** `_validate` with the remaining eight characters also required to be hexadecimal digits. */
  function ValidateStrict(input: map<string, string>): (r: Validation)
    ensures r.error.Some? <==> r.data.None?
    ensures r.error.Some? ==> r.error.value == InvalidId
    ensures r.data.Some? ==> r.data.value == input
    ensures r.error.Some? <==>
      "id" in input && !(WellShapedId(input["id"]) && Coordinator.AllHex(input["id"][1..]))
    ensures r.data.Some? && "id" in input ==> Coordinator.ParseNodeId(input["id"]).Some?
  {
    if "id" in input && !(WellShapedId(input["id"]) && Coordinator.AllHex(input["id"][1..])) then
      Validation(Some(InvalidId), None)
    else Validation(None, Some(input))
  }

  /** The strict check refines the original: it accepts a subset, and every `!%08x` id. */
  lemma StrictRefinesValidate(input: map<string, string>, n: nat)
    requires n < 0x1_0000_0000
    ensures ValidateStrict(input).data.Some? ==> Validate(input).data.Some?
    ensures ValidateStrict(map["id" := Coordinator.NodeIdText(n)]).data.Some?
  {
    Coordinator.ParseNodeIdText(n);
  }
}

=== FILE: coordinator.dfy ===
/**
 * The per-device state machine of `coordinator.py`: the persisted key-value store
 * (`Platform`), the node id parsed from the configuration, the top-level merge of
 * `_async_update_state`, and the two MQTT handlers (JSON records and status text).
 *
 * The handler input is an already-parsed JSON object; the clock reading `dt.now()`
 * is a parameter, and persisting the store to disk is left to the host.
 */
module Coordinator {
  import opened Wrappers
  import opened Values

  // ---------------------------------------------------------------------------
  // `Platform`: the store of device states, keyed by node id

  type Store = map<string, State>

  /** `Platform.get_data(key, def_)`: the stored state, or the default for a key never stored. */
  function GetData(store: Store, key: string, default: State): (r: State)
    ensures key in store ==> r == store[key]
    ensures key !in store ==> r == default
  {
    if key in store then store[key] else default
  }

  /** `Platform.async_put_data(key, data)`: a truthy (non-empty) map is stored, a falsy one deletes. */
  function PutData(store: Store, key: string, data: State): (r: Store)
    ensures Truthy(Dict(data)) ==> key in r && r[key] == data
    ensures !Truthy(Dict(data)) ==> key !in r
    ensures forall k :: k != key ==> (k in r <==> k in store)
    ensures forall k :: k != key && k in store ==> r[k] == store[k]
  {
    if data != map[] then store[key := data] else store - {key}
  }

  /** Reading back after a put gives the data put, or the default when it was falsy; other keys are unaffected. */
  lemma GetAfterPut(store: Store, key: string, other: string, data: State, default: State)
    ensures GetData(PutData(store, key, data), key, default) == if Truthy(Dict(data)) then data else default
    ensures other != key ==> GetData(PutData(store, key, data), other, default) == GetData(store, other, default)
  {
  }

  /** A later put to the same key supersedes an earlier one. */
  lemma PutOverwrites(store: Store, key: string, first: State, second: State)
    ensures PutData(PutData(store, key, first), key, second) == PutData(store, key, second)
  {
  }

  // ---------------------------------------------------------------------------
  // Node ids: `int(node_id[1:], 16)`

  predicate IsHexDigit(c: char) {
    '0' <= c <= '9' || 'a' <= c <= 'f' || 'A' <= c <= 'F'
  }

  predicate AllHex(s: string) {
    forall i :: 0 <= i < |s| ==> IsHexDigit(s[i])
  }

  function HexDigitValue(c: char): (r: nat)
    requires IsHexDigit(c)
    ensures r < 16
  {
    if '0' <= c <= '9' then c as int - '0' as int
    else if 'a' <= c <= 'f' then c as int - 'a' as int + 10
    else c as int - 'A' as int + 10
  }

  /** The lower-case digit `format(d, "x")`. */
  function HexChar(d: nat): (c: char)
    requires d < 16
    ensures IsHexDigit(c) && HexDigitValue(c) == d
  {
    if d < 10 then ('0' as int + d) as char else ('a' as int + (d - 10)) as char
  }

  function Pow16(n: nat): (r: nat)
    ensures r >= 1
  {
    if n == 0 then 1 else 16 * Pow16(n - 1)
  }

  /** The number written by hexadecimal digits, most significant first. */
  function HexValue(s: string): (r: nat)
    requires AllHex(s)
    ensures r < Pow16(|s|)
    decreases |s|
  {
    if s == [] then 0 else 16 * HexValue(s[..|s| - 1]) + HexDigitValue(s[|s| - 1])
  }

  /** `n` as exactly `width` lower-case hexadecimal digits, most significant first. */
  function HexText(n: nat, width: nat): (r: string)
    requires n < Pow16(width)
    ensures |r| == width && AllHex(r)
    decreases width
  {
    if width == 0 then [] else HexText(n / 16, width - 1) + [HexChar(n % 16)]
  }

  /**
   * `int(node_id[1:], 16)` in `Coordinator.__init__`; None is the `ValueError` raised for an
   * empty or non-hexadecimal remainder. The leading character is skipped unread.
   */
  function ParseNodeId(nodeId: string): (r: Option<nat>)
    ensures r.Some? <==> |nodeId| >= 2 && AllHex(nodeId[1..])
    ensures r.Some? ==> r.value < Pow16(|nodeId| - 1)
  {
    if |nodeId| >= 2 && AllHex(nodeId[1..]) then Some(HexValue(nodeId[1..])) else None
  }

  /** Meshtastic's `!%08x` spelling of a 32-bit node number. */
  function NodeIdText(n: nat): (r: string)
    requires n < 0x1_0000_0000
    ensures |r| == 9 && r[0] == '!'
  {
    assert Pow16(8) == 0x1_0000_0000;
    "!" + HexText(n, 8)
  }

  /** Reading hexadecimal digits back gives the number they were written from. */
  lemma {:induction false} HexValueOfText(n: nat, width: nat)
    requires n < Pow16(width)
    ensures HexValue(HexText(n, width)) == n
    decreases width
  {
    if width > 0 {
      var s := HexText(n, width);
      HexValueOfText(n / 16, width - 1);
      assert s[..|s| - 1] == HexText(n / 16, width - 1);
      assert s[|s| - 1] == HexChar(n % 16);
    }
  }

  /** Parsing the `!%08x` spelling of a node number gives the number. */
  lemma ParseNodeIdText(n: nat)
    requires n < 0x1_0000_0000
    ensures ParseNodeId(NodeIdText(n)) == Some(n)
  {
    assert Pow16(8) == 0x1_0000_0000;
    var s := NodeIdText(n);
    assert s[1..] == HexText(n, 8);
    HexValueOfText(n, 8);
  }

  // ---------------------------------------------------------------------------
  // The coordinator of one device

  /**
   * A `Coordinator`: the configured node id, its numeric value `_id`, the current
   * merged state `data`, and the platform store that `data` is persisted to. The one
   * `Platform` of the program is shared by every coordinator; a node carries the view
   * of it that its own updates produce.
   */
  datatype Node = Node(nodeId: string, id: nat, data: State, store: Store)

  /** The device's state is what the store holds for its node id. */
  predicate Persisted(n: Node) {
    GetData(n.store, n.nodeId, map[]) == n.data
  }

  /**
   * `Coordinator.__init__` followed by the first refresh (`_async_update`): None when the
   * node id does not parse; otherwise the state starts as the stored state, or empty.
   */
  function Init(store: Store, nodeId: string): (r: Option<Node>)
    ensures r.Some? <==> ParseNodeId(nodeId).Some?
    ensures r.Some? ==> r.value.id == ParseNodeId(nodeId).value && r.value.nodeId == nodeId
    ensures r.Some? ==> Persisted(r.value) && r.value.store == store
  {
    match ParseNodeId(nodeId)
    case None => None
    case Some(id) => Some(Node(nodeId, id, GetData(store, nodeId, map[]), store))
  }

  /** `_async_update_state`: merge `update` over the top level of the state, then persist it. */
  function UpdateState(n: Node, update: State): (r: Node)
    ensures r.nodeId == n.nodeId && r.id == n.id
    ensures r.data.Keys == n.data.Keys + update.Keys
    ensures forall k :: k in update ==> r.data[k] == update[k]
    ensures forall k :: k in n.data && k !in update ==> r.data[k] == n.data[k]
    ensures Persisted(r)
    ensures forall k :: k != n.nodeId ==> (k in r.store <==> k in n.store)
    ensures forall k :: k != n.nodeId && k in n.store ==> r.store[k] == n.store[k]
  {
    var data := Merge(n.data, update);
    n.(data := data, store := PutData(n.store, n.nodeId, data))
  }

  /**
   * The filter and per-type merge of `_async_on_json_message` (lines 88-97): the type
   * name and its merged attribute map when the message is accepted, None when the
   * handler returns early or raises (caught by its bare `except`).
   */
  function Accept(data: State, id: nat, obj: State): (r: Option<(string, State)>)
    ensures r.Some? ==> "type" in obj && "payload" in obj
    ensures r.Some? ==> SameOpt(Get(obj, "from"), Some(Int(id)))
    ensures r.Some? ==> obj["type"] == Str(r.value.0) && obj["payload"].Dict?
    ensures r.Some? ==> r.value.0 in data ==> data[r.value.0].Dict?
    ensures r.Some? ==>
      var existing := if r.value.0 in data then data[r.value.0].fields else map[];
      var payload := obj["payload"].fields;
      r.value.1.Keys == existing.Keys + payload.Keys &&
      (forall k :: k in payload ==> r.value.1[k] == payload[k]) &&
      (forall k :: k in existing && k !in payload ==> r.value.1[k] == existing[k])
    ensures r.Some? && r.value.0 == "nodeinfo" ==> SameOpt(Get(obj, "sender"), Get(r.value.1, "id"))
  {
    if !("type" in obj && "payload" in obj) then None
    else if !SameOpt(Get(obj, "from"), Some(Int(id))) then None
    else if !obj["type"].Str? then None
    else
      var t := obj["type"].s;
      var existing := if t in data then data[t] else Dict(map[]);
      if !existing.Dict? || !obj["payload"].Dict? then None
      else
        var merged := Merge(existing.fields, obj["payload"].fields);
        if t == "nodeinfo" && !SameOpt(Get(obj, "sender"), Get(merged, "id")) then None
        else Some((t, merged))
  }

  /** Lines 99-102: the update an accepted message applies; a type named `last_update` loses to the clock. */
  function Stamped(t: string, merged: State, now: real): (u: State)
    ensures u.Keys == {t, "last_update"}
    ensures u["last_update"] == Float(now)
    ensures t != "last_update" ==> u[t] == Dict(merged)
  {
    map[t := Dict(merged)]["last_update" := Float(now)]
  }

  /** `_async_on_json_message` with `now` standing for `dt.now().timestamp()`. */
  function OnJsonMessage(n: Node, obj: State, now: real): (r: Node)
    ensures r.nodeId == n.nodeId && r.id == n.id
    ensures Accept(n.data, n.id, obj).None? ==> r == n
    ensures Accept(n.data, n.id, obj).Some? ==>
      var t := Accept(n.data, n.id, obj).value.0;
      "last_update" in r.data && r.data["last_update"] == Float(now) &&
      (t != "last_update" ==> t in r.data && r.data[t] == Dict(Accept(n.data, n.id, obj).value.1)) &&
      (forall k :: k != t && k != "last_update" ==>
        (k in r.data <==> k in n.data) && (k in n.data ==> r.data[k] == n.data[k]))
    ensures Persisted(n) ==> Persisted(r)
  {
    match Accept(n.data, n.id, obj)
    case None => n
    case Some((t, merged)) => UpdateState(n, Stamped(t, merged, now))
  }

  /**
   * The walrus guard `if topic := self._config.get("stat_topic")` of `async_load`: the
   * status topic is subscribed to when it is configured and truthy.
   */
  function StatSubscription(config: map<string, string>): (r: Option<string>)
    ensures r.Some? <==> "stat_topic" in config && |config["stat_topic"]| > 0
    ensures r.Some? ==> r.value == config["stat_topic"]
  {
    if "stat_topic" in config && Truthy(Str(config["stat_topic"])) then Some(config["stat_topic"]) else None
  }

  /** `_async_on_stat_message`: the raw payload becomes `stat`, with no filtering. */
  function OnStatMessage(n: Node, payload: string): (r: Node)
    ensures r.nodeId == n.nodeId && r.id == n.id
    ensures "stat" in r.data && r.data["stat"] == Str(payload)
    ensures forall k :: k != "stat" ==> (k in r.data <==> k in n.data) && (k in n.data ==> r.data[k] == n.data[k])
    ensures Persisted(r)
  {
    UpdateState(n, map["stat" := Str(payload)])
  }

  // ---------------------------------------------------------------------------
  // Properties of the handlers

  /** A message whose `from` is not this device's number changes nothing. */
  lemma OtherSenderIgnored(n: Node, obj: State, now: real)
    requires !SameOpt(Get(obj, "from"), Some(Int(n.id)))
    ensures OnJsonMessage(n, obj, now) == n
  {
  }

  /** A message without both `type` and `payload` changes nothing. */
  lemma IncompleteMessageIgnored(n: Node, obj: State, now: real)
    requires "type" !in obj || "payload" !in obj
    ensures OnJsonMessage(n, obj, now) == n
  {
  }

  /** A `nodeinfo` message whose `sender` is not the merged record's `id` changes nothing. */
  lemma ForeignNodeInfoIgnored(n: Node, obj: State, now: real)
    requires "type" in obj && obj["type"] == Str("nodeinfo") && "payload" in obj && obj["payload"].Dict?
    requires "nodeinfo" in n.data ==> n.data["nodeinfo"].Dict?
    requires var existing := if "nodeinfo" in n.data then n.data["nodeinfo"].fields else map[];
      !SameOpt(Get(obj, "sender"), Get(Merge(existing, obj["payload"].fields), "id"))
    ensures OnJsonMessage(n, obj, now) == n
  {
  }

  /** A well-formed message from this device, other than foreign node info, is accepted. */
  lemma WellFormedMessageAccepted(n: Node, obj: State, t: string)
    requires "type" in obj && obj["type"] == Str(t) && "payload" in obj && obj["payload"].Dict?
    requires SameOpt(Get(obj, "from"), Some(Int(n.id)))
    requires t in n.data ==> n.data[t].Dict?
    requires t == "nodeinfo" ==>
      var existing := if t in n.data then n.data[t].fields else map[];
      SameOpt(Get(obj, "sender"), Get(Merge(existing, obj["payload"].fields), "id"))
    ensures Accept(n.data, n.id, obj).Some?
  {
  }

  /** Two successive state updates amount to one update with their merge. */
  lemma UpdateStateTwice(n: Node, first: State, second: State)
    ensures UpdateState(UpdateState(n, first), second) == UpdateState(n, Merge(first, second))
  {
    assert Merge(Merge(n.data, first), second) == Merge(n.data, Merge(first, second));
    PutOverwrites(n.store, n.nodeId, Merge(n.data, first), Merge(n.data, Merge(first, second)));
  }

  /** After an accepted message, the same message is accepted again with the same merged map. */
  lemma ReacceptedUnchanged(n: Node, obj: State, t: string, merged: State, now: real)
    requires Accept(n.data, n.id, obj) == Some((t, merged))
    requires t != "last_update"
    ensures Accept(OnJsonMessage(n, obj, now).data, n.id, obj) == Some((t, merged))
  {
    var existing := if t in n.data then n.data[t].fields else map[];
    MergeIdempotent(existing, obj["payload"].fields);
    var once := OnJsonMessage(n, obj, now);
    assert once.data[t] == Dict(merged);
  }

  /** Delivering the same message twice at the same time is the same as delivering it once. */
  lemma RedeliveryIdempotent(n: Node, obj: State, now: real)
    ensures OnJsonMessage(OnJsonMessage(n, obj, now), obj, now) == OnJsonMessage(n, obj, now)
  {
    var once := OnJsonMessage(n, obj, now);
    match Accept(n.data, n.id, obj)
    case None =>
    case Some((t, merged)) =>
      if t == "last_update" {
        assert once.data["last_update"] == Float(now);
        assert Accept(once.data, once.id, obj).None?;
      } else {
        ReacceptedUnchanged(n, obj, t, merged, now);
        UpdateStateTwice(n, Stamped(t, merged, now), Stamped(t, merged, now));
        assert Merge(Stamped(t, merged, now), Stamped(t, merged, now)) == Stamped(t, merged, now);
      }
  }

  /**
   * Redelivering a message later only moves `last_update`: the per-type map is the one the
   * first delivery produced. (A message whose type is `last_update` itself is excluded: its
   * first delivery stores a number there, which the second delivery cannot merge into.)
   */
  lemma RedeliveryOnlyRefreshesTimestamp(n: Node, obj: State, first: real, second: real)
    requires Get(obj, "type") != Some(Str("last_update"))
    ensures OnJsonMessage(OnJsonMessage(n, obj, first), obj, second) == OnJsonMessage(n, obj, second)
  {
    match Accept(n.data, n.id, obj)
    case None =>
    case Some((t, merged)) =>
      ReacceptedUnchanged(n, obj, t, merged, first);
      UpdateStateTwice(n, Stamped(t, merged, first), Stamped(t, merged, second));
      assert Merge(Stamped(t, merged, first), Stamped(t, merged, second)) == Stamped(t, merged, second);
  }

  /**
   * Two accepted messages of one type (not `nodeinfo`, whose acceptance depends on the
   * merged `id`) whose payloads have disjoint keys can arrive in either order.
   */
  lemma DisjointUpdatesCommute(n: Node, a: State, b: State, t: string, first: real, second: real)
    requires t != "nodeinfo" && t != "last_update"
    requires Accept(n.data, n.id, a).Some? && Accept(n.data, n.id, a).value.0 == t
    requires Accept(n.data, n.id, b).Some? && Accept(n.data, n.id, b).value.0 == t
    requires a["payload"].fields.Keys !! b["payload"].fields.Keys
    ensures OnJsonMessage(OnJsonMessage(n, a, first), b, second) ==
      OnJsonMessage(OnJsonMessage(n, b, first), a, second)
  {
    var existing := if t in n.data then n.data[t].fields else map[];
    var pa, pb := a["payload"].fields, b["payload"].fields;
    MergeCommutesOnDisjointKeys(existing, pa, pb);
    InSequence(n, a, b, t, first, second);
    InSequence(n, b, a, t, first, second);
  }

  /** Two accepted messages of one type in a row: the second merges over the first. */
  lemma InSequence(n: Node, a: State, b: State, t: string, first: real, second: real)
    requires t != "nodeinfo" && t != "last_update"
    requires Accept(n.data, n.id, a).Some? && Accept(n.data, n.id, a).value.0 == t
    requires Accept(n.data, n.id, b).Some? && Accept(n.data, n.id, b).value.0 == t
    ensures var existing := if t in n.data then n.data[t].fields else map[];
      OnJsonMessage(OnJsonMessage(n, a, first), b, second) ==
      UpdateState(n, Stamped(t, Merge(Merge(existing, a["payload"].fields), b["payload"].fields), second))
  {
    var ma := Accept(n.data, n.id, a).value.1;
    var both := Merge(ma, b["payload"].fields);
    AcceptAfter(n, a, b, t, ma, first);
    UpdateStateTwice(n, Stamped(t, ma, first), Stamped(t, both, second));
    assert Merge(Stamped(t, ma, first), Stamped(t, both, second)) == Stamped(t, both, second);
  }

  /** A message of a type other than `nodeinfo` merges into whatever the previous message of that type left. */
  lemma AcceptAfter(n: Node, a: State, b: State, t: string, ma: State, now: real)
    requires t != "nodeinfo" && t != "last_update"
    requires Accept(n.data, n.id, a) == Some((t, ma))
    requires Accept(n.data, n.id, b).Some? && Accept(n.data, n.id, b).value.0 == t
    ensures Accept(OnJsonMessage(n, a, now).data, n.id, b) == Some((t, Merge(ma, b["payload"].fields)))
  {
    var na := OnJsonMessage(n, a, now);
    assert na.data[t] == Dict(ma);
  }
}

=== FILE: device_tracker.dfy ===
/**
 * The position tracker of `device_tracker.py`: coordinates scaled from the
 * integer `latitude_i`/`longitude_i` fields, an unclamped battery level, and the
 * truthy position attributes.
 */
module DeviceTracker {
  import opened Wrappers
  import opened Values
  import opened Readings
  import Sensor

  const PositionSection: string := "position"

  /** Degrees are stored as integers in units of 10^-7 degrees. */
  const CoordinateScale: real := 10000000.0

  /** `value / 10000000.0` does not raise: a truthy coordinate is a number. */
  predicate CoordinateReadable(data: State, key: string) {
    Gettable(data, PositionSection) &&
    ((Fields(data, PositionSection).Some? && key in Fields(data, PositionSection).value &&
      Truthy(Fields(data, PositionSection).value[key])) ==>
     IsNumber(Fields(data, PositionSection).value[key]))
  }

  /** The guard `if pos := data.get("position"): if value := pos.get(key): return value / 10000000.0`. */
  function Coordinate(data: State, key: string): (r: Option<real>)
    requires CoordinateReadable(data, key)
    ensures r.Some? <==> (Fields(data, PositionSection).Some? && key in Fields(data, PositionSection).value &&
      Truthy(Fields(data, PositionSection).value[key]))
    ensures r.Some? ==> r.value != 0.0 && r.value * CoordinateScale == Num(data[PositionSection].fields[key])
  {
    match Fields(data, PositionSection)
    case None => None
    case Some(m) => if key in m && Truthy(m[key]) then Some(Num(m[key]) / CoordinateScale) else None
  }

  /** `_Position.latitude`: None when the position or `latitude_i` is absent or zero. */
  function Latitude(data: State): (r: Option<real>)
    requires CoordinateReadable(data, "latitude_i")
    ensures r.Some? <==> (Fields(data, PositionSection).Some? && "latitude_i" in Fields(data, PositionSection).value &&
      Truthy(Fields(data, PositionSection).value["latitude_i"]))
    ensures r.Some? ==> r.value != 0.0 && r.value * CoordinateScale == Num(data[PositionSection].fields["latitude_i"])
  {
    Coordinate(data, "latitude_i")
  }

  /** `_Position.longitude`: None when the position or `longitude_i` is absent or zero. */
  function Longitude(data: State): (r: Option<real>)
    requires CoordinateReadable(data, "longitude_i")
    ensures r.Some? <==> (Fields(data, PositionSection).Some? && "longitude_i" in Fields(data, PositionSection).value &&
      Truthy(Fields(data, PositionSection).value["longitude_i"]))
    ensures r.Some? ==> r.value != 0.0 && r.value * CoordinateScale == Num(data[PositionSection].fields["longitude_i"])
  {
    Coordinate(data, "longitude_i")
  }

  /** `_Position.battery_level`: a positive level, reported as stored (no clamp at 100). */
  function TrackerBattery(data: State): (r: Option<Value>)
    requires Comparable(data, Sensor.DeviceMetrics, "battery_level")
    ensures r.Some? <==> (Section(data, Sensor.DeviceMetrics).Some? &&
      Num(Sensor.Metric(data, Sensor.DeviceMetrics, "battery_level")) > 0.0)
    ensures r.Some? ==> r.value == Sensor.Metric(data, Sensor.DeviceMetrics, "battery_level") && Num(r.value) > 0.0
  {
    Sensor.Positive(data, Sensor.DeviceMetrics, "battery_level")
  }

  /** `_Position.extra_state_attributes`: the truthy ones of altitude, ground speed and satellites. */
  function TrackerAttributes(data: State): (r: State)
    requires Gettable(data, PositionSection)
    ensures r.Keys <= {"altitude", "ground_speed", "sats_in_view"}
    ensures Fields(data, PositionSection).None? ==> r == map[]
    ensures Fields(data, PositionSection).Some? ==> var m := Fields(data, PositionSection).value;
      (forall k :: k in r <==> k in {"altitude", "ground_speed", "sats_in_view"} && k in m && Truthy(m[k])) &&
      (forall k :: k in r ==> r[k] == m[k])
  {
    match Fields(data, PositionSection)
    case None => map[]
    case Some(m) => TruthyAttributes(m, ["altitude", "ground_speed", "sats_in_view"])
  }

  /**
   * The tracker and the battery sensor report a level in the same cases; they differ only
   * in the sensor's clamp at 100.
   */
  lemma TrackerBatteryVersusSensor(data: State)
    requires Comparable(data, Sensor.DeviceMetrics, "battery_level")
    ensures TrackerBattery(data).Some? <==> Sensor.Battery(data).Some?
    ensures TrackerBattery(data).Some? ==>
      var v := Num(TrackerBattery(data).value);
      Num(Sensor.Battery(data).value) == (if v > 100.0 then 100.0 else v) &&
      (v <= 100.0 ==> Sensor.Battery(data) == TrackerBattery(data))
  {
  }

  /** Non-zero integer coordinates stored in the position section read back scaled by 10^-7. */
  lemma StoredCoordinates(data: State, lat: int, lon: int)
    requires lat != 0 && lon != 0
    requires PositionSection in data && data[PositionSection].Dict?
    requires "latitude_i" in data[PositionSection].fields && data[PositionSection].fields["latitude_i"] == Int(lat)
    requires "longitude_i" in data[PositionSection].fields && data[PositionSection].fields["longitude_i"] == Int(lon)
    ensures CoordinateReadable(data, "latitude_i") && Latitude(data) == Some(lat as real / CoordinateScale)
    ensures CoordinateReadable(data, "longitude_i") && Longitude(data) == Some(lon as real / CoordinateScale)
  {
  }

  /** A zero altitude is dropped from the attributes, as Python treats `0` as false. */
  lemma ZeroAltitudeDropped(data: State)
    requires Gettable(data, PositionSection) && Fields(data, PositionSection).Some?
    requires "altitude" in Fields(data, PositionSection).value && Fields(data, PositionSection).value["altitude"] == Int(0)
    ensures "altitude" !in TrackerAttributes(data)
  {
  }
}

=== FILE: integration.dfy ===
/**
 * The pieces working together: setting up a device from the configuration form, and
 * the records `convert_envelope_to_json` builds, handed to the coordinator's JSON
 * handler and read by the entities.
 */
module Integration {
  import opened Wrappers
  import opened Values
  import opened Proto
  import Coordinator
  import ConfigFlow
  import Readings
  import Sensor
  import DeviceTracker
  import BinarySensor

  /** The outcome of submitting the configuration form and setting up the entry. */
  datatype Setup =
    | FormError(error: string)          // `_validate` returned an error; the form is shown again
    | SetupFailed                       // the entry was created, but setting it up raised
    | Running(node: Coordinator.Node)   // the coordinator is running for the configured node

  /**
   * `async_setup_entry` for a created entry: `Coordinator.__init__` reads `data["id"]` and
   * parses it, the first refresh loads the stored state, and `async_load` subscribes to
   * `options["json_topic"]`. A missing key or an unparsable id raises.
   */
  function Start(entry: ConfigFlow.Entry, store: Coordinator.Store): (r: Setup)
    ensures r.Running? <==>
      "id" in entry.data && Coordinator.ParseNodeId(entry.data["id"]).Some? && "json_topic" in entry.options
    ensures r.Running? ==> r.node.nodeId == entry.data["id"] && Coordinator.Persisted(r.node) && r.node.store == store
    ensures !r.FormError?
  {
    if "id" !in entry.data then SetupFailed
    else
      match Coordinator.Init(store, entry.data["id"])
      case None => SetupFailed
      case Some(n) => if "json_topic" in entry.options then Running(n) else SetupFailed
  }

  /** Submitting the form and setting up the entry it creates, as written. */
  function SetUp(input: map<string, string>, store: Coordinator.Store): (r: Setup)
    requires "title" in input
    ensures r.FormError? <==> ConfigFlow.Validate(input).error.Some?
    ensures r.SetupFailed? <==> ConfigFlow.Validate(input).error.None?
    ensures !r.Running?
  {
    match ConfigFlow.UserStep(input)
    case ShowForm(e) => FormError(e)
    case CreateEntry(entry) => Start(entry, store)
  }

  /** Submitting the form and setting up the entry it creates, with the corrected flow. */
  function SetUpStrict(input: map<string, string>, store: Coordinator.Store): (r: Setup)
    requires "title" in input
    ensures r.FormError? <==> ConfigFlow.ValidateStrict(input).error.Some?
    ensures r.Running? <==> !r.FormError? && "id" in input && "json_topic" in input
    ensures r.Running? ==> r.node.nodeId == input["id"] && r.node.store == store
  {
    match ConfigFlow.UserStepStrict(input)
    case ShowForm(e) => FormError(e)
    case CreateEntry(entry) => Start(entry, store)
  }

  /**
   * A form for node `!0a1b2c3d` that also carries a `json_topic`: as written, its entry has no
   * `data["id"]` and fails to set up; the corrected flow runs a coordinator for node 0x0a1b2c3d.
   * A form with only the keys the form's schema collects (`title`, `id`, `pb_topic`,
   * `stat_topic`) has no `json_topic`, and fails to set up under either flow.
   */
  lemma CreatedEntryFailsSetUp(store: Coordinator.Store)
    ensures var form := map["title" := "Base", "id" := "!0a1b2c3d", "pb_topic" := "msh/2/e",
                             "json_topic" := "msh/2/json"];
      SetUp(form, store) == SetupFailed &&
      SetUpStrict(form, store).Running? && SetUpStrict(form, store).node.id == 0x0a1b2c3d
    ensures var form := map["title" := "Base", "id" := "!0a1b2c3d", "pb_topic" := "msh/2/e",
                             "stat_topic" := "msh/2/stat"];
      SetUp(form, store) == SetupFailed && SetUpStrict(form, store) == SetupFailed
  {
    ExampleIdParses();
  }

  /** `!0a1b2c3d` is the `!%08x` spelling of node 0x0a1b2c3d. */
  lemma ExampleIdParses()
    ensures Coordinator.ParseNodeId("!0a1b2c3d") == Some(0x0a1b2c3d)
  {
    Coordinator.ParseNodeIdText(0x0a1b2c3d);
    assert Coordinator.NodeIdText(0x0a1b2c3d) == "!0a1b2c3d";
  }

  /**
   * Even once the entry carries the id, the check as written lets `!zzzzzzzz` through and the
   * set-up then fails; the corrected form rejects it.
   */
  lemma UnparsableIdFailsSetUp(store: Coordinator.Store)
    ensures var form := map["title" := "Base", "id" := "!zzzzzzzz", "json_topic" := "msh/2/json"];
      ConfigFlow.Validate(form).error.None? &&
      Start(ConfigFlow.Entry("Base", form, form), store) == SetupFailed &&
      SetUpStrict(form, store).FormError?
  {
    ConfigFlow.ValidateAcceptsUnparsableId();
    var form := map["title" := "Base", "id" := "!zzzzzzzz", "json_topic" := "msh/2/json"];
    assert !Coordinator.IsHexDigit(form["id"][1]);
  }

  // ---------------------------------------------------------------------------
  // Envelopes through the coordinator

  /** A converted envelope from another node leaves the device's state alone. */
  lemma EnvelopeFromOtherNodeIgnored(codec: Codec, envelope: ServiceEnvelope, obj: State,
                                     n: Coordinator.Node, now: real)
    requires ConvertEnvelope(codec, envelope) == Success(obj)
    requires envelope.packet.fromId != n.id
    ensures Coordinator.OnJsonMessage(n, obj, now) == n
  {
    Coordinator.OtherSenderIgnored(n, obj, now);
  }

  /** An envelope on a port without a converter leaves the device's state alone. */
  lemma UnknownPortIgnored(codec: Codec, envelope: ServiceEnvelope, n: Coordinator.Node, now: real)
    requires ConverterFor(DecodedOf(envelope.packet).portnum).None?
    ensures ConvertEnvelope(codec, envelope).Success?
    ensures Coordinator.OnJsonMessage(n, ConvertEnvelope(codec, envelope).value, now) == n
  {
    Coordinator.IncompleteMessageIgnored(n, ConvertEnvelope(codec, envelope).value, now);
  }

  /** The converted message of a typed record from the node itself. */
  lemma OwnRecordAccepted(codec: Codec, envelope: ServiceEnvelope, n: Coordinator.Node, kind: Kind, rec: Record)
    requires ConverterFor(DecodedOf(envelope.packet).portnum) == Some(kind)
    requires Interpret(codec, kind, DecodedOf(envelope.packet).payload, envelope) == Some(rec)
    requires Actionable(rec) && envelope.packet.fromId == n.id
    requires rec.typ.value != "nodeinfo"
    requires rec.typ.value in n.data ==> n.data[rec.typ.value].Dict?
    ensures ConvertEnvelope(codec, envelope).Success?
    ensures var t := rec.typ.value;
      var existing := if t in n.data then n.data[t].fields else map[];
      Coordinator.Accept(n.data, n.id, ConvertEnvelope(codec, envelope).value) == Some((t, Merge(existing, rec.payload)))
  {
    ConvertEnvelopeTyped(codec, envelope, kind, rec);
    var obj := ConvertEnvelope(codec, envelope).value;
    assert Get(obj, "from") == Some(Int(n.id));
  }

  /**
   * A position report from the node reaches the tracker: a non-zero `latitude_i` is read back
   * divided by 10^7, and the longitude likewise.
   */
  lemma PositionReachesTracker(codec: Codec, envelope: ServiceEnvelope, p: Position,
                               n: Coordinator.Node, now: real)
    requires DecodedOf(envelope.packet).portnum == PositionApp
    requires codec.position(DecodedOf(envelope.packet).payload) == Some(p)
    requires envelope.packet.fromId == n.id
    requires DeviceTracker.PositionSection in n.data ==> n.data[DeviceTracker.PositionSection].Dict?
    requires p.latitudeI != 0 && p.longitudeI != 0
    ensures ConvertEnvelope(codec, envelope).Success?
    ensures var d := Coordinator.OnJsonMessage(n, ConvertEnvelope(codec, envelope).value, now).data;
      DeviceTracker.CoordinateReadable(d, "latitude_i") && DeviceTracker.CoordinateReadable(d, "longitude_i") &&
      DeviceTracker.Latitude(d) == Some(p.latitudeI as real / DeviceTracker.CoordinateScale) &&
      DeviceTracker.Longitude(d) == Some(p.longitudeI as real / DeviceTracker.CoordinateScale)
  {
    var rec := AsPosition(p);
    OwnRecordAccepted(codec, envelope, n, PositionKind, rec);
    var existing := if "position" in n.data then n.data["position"].fields else map[];
    var m := Merge(existing, rec.payload);
    assert m["latitude_i"] == Int(p.latitudeI) && m["longitude_i"] == Int(p.longitudeI);
    PositionStored(n, ConvertEnvelope(codec, envelope).value, now, m, p.latitudeI, p.longitudeI);
  }

  /** An accepted position whose merged map holds non-zero coordinates is what the tracker reads. */
  lemma PositionStored(n: Coordinator.Node, obj: State, now: real, m: State, lat: int, lon: int)
    requires Coordinator.Accept(n.data, n.id, obj) == Some(("position", m))
    requires lat != 0 && lon != 0
    requires "latitude_i" in m && m["latitude_i"] == Int(lat)
    requires "longitude_i" in m && m["longitude_i"] == Int(lon)
    ensures var d := Coordinator.OnJsonMessage(n, obj, now).data;
      DeviceTracker.CoordinateReadable(d, "latitude_i") && DeviceTracker.CoordinateReadable(d, "longitude_i") &&
      DeviceTracker.Latitude(d) == Some(lat as real / DeviceTracker.CoordinateScale) &&
      DeviceTracker.Longitude(d) == Some(lon as real / DeviceTracker.CoordinateScale)
  {
    var d := Coordinator.OnJsonMessage(n, obj, now).data;
    assert d["position"] == Dict(m);
    DeviceTracker.StoredCoordinates(d, lat, lon);
  }

  /**
   * A neighbour report from the node reaches the neighbour-count sensor: it shows the number
   * of neighbours in the report, zero included.
   */
  lemma NeighborInfoReachesSensor(codec: Codec, envelope: ServiceEnvelope, info: NeighborInfo,
                                  n: Coordinator.Node, now: real)
    requires DecodedOf(envelope.packet).portnum == NeighborInfoApp
    requires codec.neighborInfo(DecodedOf(envelope.packet).payload) == Some(info)
    requires envelope.packet.fromId == n.id
    requires Sensor.NeighborInfo in n.data ==> n.data[Sensor.NeighborInfo].Dict?
    ensures ConvertEnvelope(codec, envelope).Success?
    ensures var d := Coordinator.OnJsonMessage(n, ConvertEnvelope(codec, envelope).value, now).data;
      Readings.Comparable(d, Sensor.NeighborInfo, "neighbors_count") &&
      Sensor.NeighborsCount(d) == Some(Int(|info.neighbors|))
  {
    var rec := AsNeighborInfo(info);
    OwnRecordAccepted(codec, envelope, n, NeighborInfoKind, rec);
    var existing := if "neighborinfo" in n.data then n.data["neighborinfo"].fields else map[];
    var m := Merge(existing, rec.payload);
    assert m["neighbors_count"] == Int(|info.neighbors|);
    NeighborsStored(n, ConvertEnvelope(codec, envelope).value, now, m, |info.neighbors|);
  }

  /** An accepted neighbour map holding a count is what the neighbour-count sensor reads. */
  lemma NeighborsStored(n: Coordinator.Node, obj: State, now: real, m: State, count: nat)
    requires Coordinator.Accept(n.data, n.id, obj) == Some(("neighborinfo", m))
    requires "neighbors_count" in m && m["neighbors_count"] == Int(count)
    ensures var d := Coordinator.OnJsonMessage(n, obj, now).data;
      Readings.Comparable(d, Sensor.NeighborInfo, "neighbors_count") &&
      Sensor.NeighborsCount(d) == Some(Int(count))
  {
    var d := Coordinator.OnJsonMessage(n, obj, now).data;
    assert d["neighborinfo"] == Dict(m);
  }

  /** New York City: `latitude_i` 407128000 and `longitude_i` -740060000 read as 40.7128 and -74.006. */
  lemma NewYorkPosition(codec: Codec, envelope: ServiceEnvelope, n: Coordinator.Node, now: real)
    requires DecodedOf(envelope.packet).portnum == PositionApp
    requires codec.position(DecodedOf(envelope.packet).payload) == Some(Position(407128000, -740060000, 10, 0, 7))
    requires envelope.packet.fromId == n.id
    requires DeviceTracker.PositionSection in n.data ==> n.data[DeviceTracker.PositionSection].Dict?
    ensures ConvertEnvelope(codec, envelope).Success?
    ensures var d := Coordinator.OnJsonMessage(n, ConvertEnvelope(codec, envelope).value, now).data;
      DeviceTracker.CoordinateReadable(d, "latitude_i") && DeviceTracker.CoordinateReadable(d, "longitude_i") &&
      DeviceTracker.Latitude(d) == Some(40.7128) && DeviceTracker.Longitude(d) == Some(-74.006)
  {
    PositionReachesTracker(codec, envelope, Position(407128000, -740060000, 10, 0, 7), n, now);
  }

  /**
   * Node info from the node itself is kept only when the gateway that relayed it is the
   * node it describes: the envelope's `sender` must equal the user's `id`.
   */
  lemma NodeInfoAcceptedIffSelfReported(codec: Codec, envelope: ServiceEnvelope, u: User, n: Coordinator.Node)
    requires DecodedOf(envelope.packet).portnum == NodeInfoApp
    requires codec.user(DecodedOf(envelope.packet).payload) == Some(u)
    requires envelope.packet.fromId == n.id
    requires "nodeinfo" in n.data ==> n.data["nodeinfo"].Dict?
    ensures ConvertEnvelope(codec, envelope).Success?
    ensures Coordinator.Accept(n.data, n.id, ConvertEnvelope(codec, envelope).value).Some? <==>
      u.id == envelope.gatewayId
  {
    var rec := AsNodeInfo(u);
    ConvertEnvelopeTyped(codec, envelope, NodeInfoKind, rec);
    var obj := ConvertEnvelope(codec, envelope).value;
    assert Get(obj, "from") == Some(Int(n.id));
    assert Get(obj, "sender") == Some(Str(envelope.gatewayId));
    var existing := if "nodeinfo" in n.data then n.data["nodeinfo"].fields else map[];
    assert Get(Merge(existing, rec.payload), "id") == Some(Str(u.id));
  }

  /** Environment telemetry leaves every device-metric reading as it was. */
  lemma EnvironmentKeepsDeviceMetrics(codec: Codec, envelope: ServiceEnvelope, m: EnvironmentMetrics,
                                      n: Coordinator.Node, now: real)
    requires DecodedOf(envelope.packet).portnum == TelemetryApp
    requires codec.telemetry(DecodedOf(envelope.packet).payload) == Some(Telemetry(EnvironmentMetricsVariant(m)))
    requires Readings.Comparable(n.data, Sensor.DeviceMetrics, "battery_level")
    requires Readings.Comparable(n.data, Sensor.DeviceMetrics, "voltage")
    ensures ConvertEnvelope(codec, envelope).Success?
    ensures var d := Coordinator.OnJsonMessage(n, ConvertEnvelope(codec, envelope).value, now).data;
      Readings.Comparable(d, Sensor.DeviceMetrics, "battery_level") &&
      Readings.Comparable(d, Sensor.DeviceMetrics, "voltage") &&
      Sensor.Battery(d) == Sensor.Battery(n.data) && Sensor.Voltage(d) == Sensor.Voltage(n.data) &&
      Sensor.AirUtilTx(d) == Sensor.AirUtilTx(n.data) &&
      Sensor.ChannelUtilization(d) == Sensor.ChannelUtilization(n.data)
  {
    var rec := AsTelemetry(Telemetry(EnvironmentMetricsVariant(m)));
    ConvertEnvelopeTyped(codec, envelope, TelemetryKind, rec);
    var d := Coordinator.OnJsonMessage(n, ConvertEnvelope(codec, envelope).value, now).data;
    assert Get(d, Sensor.DeviceMetrics) == Get(n.data, Sensor.DeviceMetrics);
    Sensor.DeviceMetricsFrame(n.data, d);
  }

  /** A status message `online` turns the connectivity entity on, whatever came before. */
  lemma OnlineStatusTurnsOn(n: Coordinator.Node, payload: string)
    ensures BinarySensor.IsOn(Coordinator.OnStatMessage(n, payload).data) ==
      if payload == "" then None else Some(payload == "online")
  {
  }

  /** A JSON message of a type other than `stat` does not change the connectivity entity. */
  lemma JsonMessageKeepsOnline(n: Coordinator.Node, obj: State, now: real)
    requires Get(obj, "type") != Some(Str("stat"))
    ensures BinarySensor.IsOn(Coordinator.OnJsonMessage(n, obj, now).data) == BinarySensor.IsOn(n.data)
  {
    var d := Coordinator.OnJsonMessage(n, obj, now).data;
    assert Get(d, "stat") == Get(n.data, "stat");
    BinarySensor.IsOnFrame(n.data, d);
  }

  /** Every accepted message stamps the time it was handled as the last update. */
  lemma AcceptedMessageStampsLastUpdate(n: Coordinator.Node, obj: State, now: real)
    requires Coordinator.Accept(n.data, n.id, obj).Some?
    ensures Sensor.LastUpdate(Coordinator.OnJsonMessage(n, obj, now).data) == Some(Float(now))
  {
  }
}

=== FILE: little_endian.dfy ===
/**
 * Python's `int.to_bytes(width, "little")` on non-negative integers and its
 * inverse `int.from_bytes(bs, "little")`.
 */
module LittleEndian {
  import opened Bytes

  /** 256 to the power `width`: the first integer that no longer fits in `width` bytes. */
  function Pow256(width: nat): (r: nat)
    ensures r >= 1
  {
    if width == 0 then 1 else 256 * Pow256(width - 1)
  }

  /** `n.to_bytes(width, "little")`: least significant byte first. */
  function Encode(n: nat, width: nat): (r: seq<byte>)
    requires n < Pow256(width)
    ensures |r| == width
  {
    if width == 0 then [] else [(n % 256) as byte] + Encode(n / 256, width - 1)
  }

  /** `int.from_bytes(bs, "little")`. */
  function Decode(bs: seq<byte>): (n: nat)
    ensures n < Pow256(|bs|)
  {
    if bs == [] then 0 else bs[0] + 256 * Decode(bs[1..])
  }

  /** Reading back the bytes of `n` gives `n`. */
  lemma {:induction false} DecodeEncode(n: nat, width: nat)
    requires n < Pow256(width)
    ensures Decode(Encode(n, width)) == n
  {
    if width > 0 {
      var bs := Encode(n, width);
      assert bs[1..] == Encode(n / 256, width - 1);
      DecodeEncode(n / 256, width - 1);
      assert bs[0] == n % 256;
      assert Decode(bs) == n % 256 + 256 * (n / 256);
    }
  }

  /** Every byte string of length `width` is the encoding of exactly one integer. */
  lemma {:induction false} EncodeDecode(bs: seq<byte>)
    ensures Encode(Decode(bs), |bs|) == bs
  {
    if bs != [] {
      var n := Decode(bs);
      var low, high := bs[0], Decode(bs[1..]);
      DivMod256(low, high);
      assert n % 256 == low && n / 256 == high;
      EncodeDecode(bs[1..]);
      assert Encode(n, |bs|) == [bs[0]] + Encode(high, |bs| - 1);
    }
  }

  /** The low byte and the remaining high part of `low + 256 * high`. */
  lemma DivMod256(low: nat, high: nat)
    requires low < 256
    ensures (low + 256 * high) % 256 == low
    ensures (low + 256 * high) / 256 == high
  {
  }

  /** Distinct integers have distinct encodings of the same width. */
  lemma EncodeInjective(a: nat, b: nat, width: nat)
    requires a < Pow256(width) && b < Pow256(width)
    requires Encode(a, width) == Encode(b, width)
    ensures a == b
  {
    DecodeEncode(a, width);
    DecodeEncode(b, width);
  }
}

=== FILE: proto.dfy ===
/**
 * Turning a Meshtastic MQTT service envelope into the JSON-like record the
 * coordinator consumes (`proto.py`): the per-port converters, their dispatch
 * table, the envelope wrapper, and the key and nonce preparation for decrypting
 * an encrypted packet.
 *
 * Protocol-buffer parsing, UTF-8 decoding and AES-CTR are not modelled: they
 * reach the model as the function-valued fields of a `Codec` and as a `Cipher`.
 */
module Proto {
  import opened Wrappers
  import opened Bytes
  import opened Values
  import LittleEndian
  import Base64

  type uint32 = x: int | 0 <= x < 0x1_0000_0000
  type int32 = x: int | -0x8000_0000 <= x < 0x8000_0000

  /** The constraints of `uint32` and `int32`, as tests on a plain `int` read from JSON. */
  predicate IsUint32(x: int) { 0 <= x < 0x1_0000_0000 }
  predicate IsInt32(x: int) { -0x8000_0000 <= x < 0x8000_0000 }

  // Port numbers of the Meshtastic application protocol (portnums.proto).
  const TextMessageApp: int := 1
  const PositionApp: int := 3
  const NodeInfoApp: int := 4
  const TelemetryApp: int := 67
  const NeighborInfoApp: int := 71

  /** `mesh_pb2.Position`, restricted to the fields the converter reads. */
  datatype Position = Position(
    latitudeI: int32, longitudeI: int32, altitude: int32, groundSpeed: uint32, satsInView: uint32)

  datatype DeviceMetrics = DeviceMetrics(
    batteryLevel: uint32, voltage: real, channelUtilization: real, airUtilTx: real)

  datatype EnvironmentMetrics = EnvironmentMetrics(
    temperature: real, relativeHumidity: real, barometricPressure: real, gasResistance: real)

  /** The `variant` oneof of `telemetry_pb2.Telemetry`; `Other` is any further metrics kind. */
  datatype TelemetryVariant =
    | NoVariant
    | DeviceMetricsVariant(device: DeviceMetrics)
    | EnvironmentMetricsVariant(environment: EnvironmentMetrics)
    | OtherVariant(name: string)

  datatype Telemetry = Telemetry(variant: TelemetryVariant)

  /** `mesh_pb2.User`, the payload of a node-info packet. */
  datatype User = User(id: string, longName: string, shortName: string)

  datatype Neighbor = Neighbor(nodeId: uint32, snr: real)

  datatype NeighborInfo = NeighborInfo(neighbors: seq<Neighbor>)

  /** `mesh_pb2.Data`: a port number and the still-serialized sub-message. */
  datatype Data = Data(portnum: int, payload: seq<byte>)

  /** The `payload_variant` oneof of a mesh packet. */
  datatype PayloadVariant = Decoded(data: Data) | Encrypted(bytes: seq<byte>) | Unset

  datatype MeshPacket = MeshPacket(
    fromId: uint32, to: uint32, id: uint32, rxTime: uint32, variant: PayloadVariant)

  /** `mqtt_pb2.ServiceEnvelope`. */
  datatype ServiceEnvelope = ServiceEnvelope(packet: MeshPacket, channelId: string, gatewayId: string)

  /** The foreign decoders: protocol-buffer parsers and UTF-8; None is the exception they raise. */
  datatype Codec = Codec(
    position: seq<byte> -> Option<Position>,
    telemetry: seq<byte> -> Option<Telemetry>,
    user: seq<byte> -> Option<User>,
    neighborInfo: seq<byte> -> Option<NeighborInfo>,
    utf8: seq<byte> -> Option<string>,
    data: seq<byte> -> Option<Data>)

  /** What a converter returns: `(type, payload)`, where a missing type is Python's `None`. */
  datatype Record = Record(typ: Option<string>, payload: State)

  /** The entries of the `_converters` table. */
  datatype Kind = PositionKind | TelemetryKind | NodeInfoKind | NeighborInfoKind | TextKind

  /** The error `convert_envelope_to_json` raises when a sub-message cannot be decoded. */
  datatype ConvertError = SubMessageDecodeError

  /** The error `try_encrypt_envelope` raises. */
  datatype DecryptError = KeyDecodeError | CipherError | PlaintextDecodeError

  /** AES-CTR as the cryptography library provides it: key, initial counter, input bytes. */
  type Cipher = (seq<byte>, seq<byte>, seq<byte>) -> Option<seq<byte>>

  const PositionKeys: set<string> := {"latitude_i", "longitude_i", "altitude", "ground_speed", "sats_in_view"}
  const DeviceMetricsKeys: set<string> := {"battery_level", "voltage", "channel_utilization", "air_util_tx"}
  const EnvironmentMetricsKeys: set<string> :=
    {"temperature", "relative_humidity", "barometric_pressure", "gas_resistance"}
  const NodeInfoKeys: set<string> := {"id", "shortname", "longname"}

  // ---------------------------------------------------------------------------
  // Converters

  /** `_as_position`: the five position fields, copied without scaling. */
  function AsPosition(p: Position): (r: Record)
    ensures r.typ == Some("position")
    ensures r.payload.Keys == PositionKeys
    ensures forall k :: k in r.payload ==> r.payload[k].Int?
  {
    Record(Some("position"), map[
      "latitude_i" := Int(p.latitudeI),
      "longitude_i" := Int(p.longitudeI),
      "altitude" := Int(p.altitude),
      "ground_speed" := Int(p.groundSpeed),
      "sats_in_view" := Int(p.satsInView)])
  }

  function DeviceMetricsPayload(m: DeviceMetrics): (r: State)
    ensures r.Keys == DeviceMetricsKeys
  {
    map[
      "battery_level" := Int(m.batteryLevel),
      "voltage" := Float(m.voltage),
      "channel_utilization" := Float(m.channelUtilization),
      "air_util_tx" := Float(m.airUtilTx)]
  }

  function EnvironmentMetricsPayload(m: EnvironmentMetrics): (r: State)
    ensures r.Keys == EnvironmentMetricsKeys
  {
    map[
      "temperature" := Float(m.temperature),
      "relative_humidity" := Float(m.relativeHumidity),
      "barometric_pressure" := Float(m.barometricPressure),
      "gas_resistance" := Float(m.gasResistance)]
  }

  /** `_as_telemetry`: one record type per populated metrics variant, nothing for the others. */
  function AsTelemetry(t: Telemetry): (r: Record)
    ensures t.variant.DeviceMetricsVariant? ==>
      r.typ == Some("device_metrics") && r.payload.Keys == DeviceMetricsKeys
    ensures t.variant.EnvironmentMetricsVariant? ==>
      r.typ == Some("environment_metrics") && r.payload.Keys == EnvironmentMetricsKeys
    ensures t.variant.NoVariant? || t.variant.OtherVariant? ==> r == Record(None, map[])
  {
    match t.variant
    case DeviceMetricsVariant(m) => Record(Some("device_metrics"), DeviceMetricsPayload(m))
    case EnvironmentMetricsVariant(m) => Record(Some("environment_metrics"), EnvironmentMetricsPayload(m))
    case _ => Record(None, map[])
  }

  /** `_as_node_info`: the user id and the two names, renamed. */
  function AsNodeInfo(u: User): (r: Record)
    ensures r.typ == Some("nodeinfo")
    ensures r.payload.Keys == NodeInfoKeys
    ensures r.payload["id"] == Str(u.id)
  {
    Record(Some("nodeinfo"), map[
      "id" := Str(u.id), "shortname" := Str(u.shortName), "longname" := Str(u.longName)])
  }

  /** One neighbour as `{"node_id": …, "snr": …}`. */
  function NeighborValue(n: Neighbor): Value {
    Dict(map["node_id" := Int(n.nodeId), "snr" := Float(n.snr)])
  }

  /** `_as_neighbor_info`: the neighbour list in order, and its length. */
  function AsNeighborInfo(info: NeighborInfo): (r: Record)
    ensures r.typ == Some("neighborinfo")
    ensures r.payload.Keys == {"neighbors", "neighbors_count"}
    ensures r.payload["neighbors"].List?
    ensures r.payload["neighbors_count"] == Int(|r.payload["neighbors"].items|)
    ensures |r.payload["neighbors"].items| == |info.neighbors|
    ensures forall i :: 0 <= i < |info.neighbors| ==>
      r.payload["neighbors"].items[i] == NeighborValue(info.neighbors[i])
  {
    var items := seq(|info.neighbors|, i requires 0 <= i < |info.neighbors| => NeighborValue(info.neighbors[i]));
    Record(Some("neighborinfo"), map["neighbors" := List(items), "neighbors_count" := Int(|info.neighbors|)])
  }

  /** `_as_text_message`: the decoded text and the packet's receive time. */
  function AsTextMessage(text: string, envelope: ServiceEnvelope): (r: Record)
    ensures r.typ == Some("text_message")
    ensures r.payload.Keys == {"text", "rx_time"}
    ensures r.payload["text"] == Str(text) && r.payload["rx_time"] == Int(envelope.packet.rxTime)
  {
    Record(Some("text_message"), map["text" := Str(text), "rx_time" := Int(envelope.packet.rxTime)])
  }

  // ---------------------------------------------------------------------------
  // Reading the converters' payloads back: each converter loses nothing it copies.

  function IntAt(m: State, k: string): Option<int> {
    if k in m && m[k].Int? then Some(m[k].i) else None
  }

  function FloatAt(m: State, k: string): Option<real> {
    if k in m && m[k].Float? then Some(m[k].f) else None
  }

  function StrAt(m: State, k: string): Option<string> {
    if k in m && m[k].Str? then Some(m[k].s) else None
  }

  function TextOf(m: State): Option<(string, int)> {
    match (StrAt(m, "text"), IntAt(m, "rx_time"))
    case (Some(text), Some(rxTime)) => Some((text, rxTime))
    case _ => None
  }

  /** The position a `position` payload describes, if it describes one. */
  function PositionOf(m: State): Option<Position> {
    match (IntAt(m, "latitude_i"), IntAt(m, "longitude_i"), IntAt(m, "altitude"),
           IntAt(m, "ground_speed"), IntAt(m, "sats_in_view"))
    case (Some(lat), Some(lon), Some(alt), Some(speed), Some(sats)) =>
      if IsInt32(lat) && IsInt32(lon) && IsInt32(alt) && IsUint32(speed) && IsUint32(sats)
      then Some(Position(lat, lon, alt, speed, sats))
      else None
    case _ => None
  }

  function DeviceMetricsOf(m: State): Option<DeviceMetrics> {
    match (IntAt(m, "battery_level"), FloatAt(m, "voltage"), FloatAt(m, "channel_utilization"),
           FloatAt(m, "air_util_tx"))
    case (Some(battery), Some(voltage), Some(channel), Some(air)) =>
      if IsUint32(battery) then Some(DeviceMetrics(battery, voltage, channel, air)) else None
    case _ => None
  }

  function EnvironmentMetricsOf(m: State): Option<EnvironmentMetrics> {
    match (FloatAt(m, "temperature"), FloatAt(m, "relative_humidity"),
           FloatAt(m, "barometric_pressure"), FloatAt(m, "gas_resistance"))
    case (Some(t), Some(h), Some(p), Some(g)) => Some(EnvironmentMetrics(t, h, p, g))
    case _ => None
  }

  function UserOf(m: State): Option<User> {
    match (StrAt(m, "id"), StrAt(m, "longname"), StrAt(m, "shortname"))
    case (Some(id), Some(longName), Some(shortName)) => Some(User(id, longName, shortName))
    case _ => None
  }

  function NeighborOf(v: Value): Option<Neighbor> {
    match v
    case Dict(m) =>
      (match (IntAt(m, "node_id"), FloatAt(m, "snr"))
       case (Some(id), Some(snr)) => if IsUint32(id) then Some(Neighbor(id, snr)) else None
       case _ => None)
    case _ => None
  }

  /** The neighbours a `neighbors` list describes, in list order. */
  function NeighborsOf(items: seq<Value>): (r: Option<seq<Neighbor>>)
    ensures r.Some? ==> |r.value| == |items|
  {
    if items == [] then Some([])
    else match (NeighborOf(items[0]), NeighborsOf(items[1..]))
      case (Some(n), Some(rest)) => Some([n] + rest)
      case _ => None
  }

  /** Position conversion copies every field unchanged: reading the payload back recovers it. */
  lemma PositionRoundTrip(p: Position)
    ensures PositionOf(AsPosition(p).payload) == Some(p)
  {
  }

  /** Telemetry conversion copies every metric of the populated variant unchanged. */
  lemma TelemetryRoundTrip(t: Telemetry)
    ensures t.variant.DeviceMetricsVariant? ==> DeviceMetricsOf(AsTelemetry(t).payload) == Some(t.variant.device)
    ensures t.variant.EnvironmentMetricsVariant? ==>
      EnvironmentMetricsOf(AsTelemetry(t).payload) == Some(t.variant.environment)
  {
  }

  /** Text conversion keeps the decoded text and the receive time: reading the payload back recovers both. */
  lemma TextMessageRoundTrip(text: string, envelope: ServiceEnvelope)
    ensures TextOf(AsTextMessage(text, envelope).payload) == Some((text, envelope.packet.rxTime as int))
  {
  }

  /** Node-info conversion keeps the id and carries `short_name`/`long_name` as `shortname`/`longname`. */
  lemma NodeInfoRoundTrip(u: User)
    ensures UserOf(AsNodeInfo(u).payload) == Some(u)
  {
  }

  /** Reading back a list of neighbour values recovers the neighbours in order. */
  lemma {:induction false} NeighborsRoundTrip(ns: seq<Neighbor>, items: seq<Value>)
    requires |items| == |ns|
    requires forall i :: 0 <= i < |ns| ==> items[i] == NeighborValue(ns[i])
    ensures NeighborsOf(items) == Some(ns)
  {
    if ns != [] {
      assert NeighborOf(items[0]) == Some(ns[0]);
      NeighborsRoundTrip(ns[1..], items[1..]);
      assert [ns[0]] + ns[1..] == ns;
    }
  }

  /** Neighbour-info conversion keeps every neighbour, in order. */
  lemma NeighborInfoRoundTrip(info: NeighborInfo)
    ensures NeighborsOf(AsNeighborInfo(info).payload["neighbors"].items) == Some(info.neighbors)
  {
    var r := AsNeighborInfo(info);
    NeighborsRoundTrip(info.neighbors, r.payload["neighbors"].items);
  }

  // ---------------------------------------------------------------------------
  // Dispatch and the envelope wrapper

  /** `_converters.get(portnum)`: the table entry for a port number. */
  function ConverterFor(portnum: int): (r: Option<Kind>)
    ensures r.Some? <==> portnum in {TextMessageApp, PositionApp, NodeInfoApp, TelemetryApp, NeighborInfoApp}
  {
    if portnum == PositionApp then Some(PositionKind)
    else if portnum == TelemetryApp then Some(TelemetryKind)
    else if portnum == NodeInfoApp then Some(NodeInfoKind)
    else if portnum == NeighborInfoApp then Some(NeighborInfoKind)
    else if portnum == TextMessageApp then Some(TextKind)
    else None
  }

  /** The port number each table entry is registered under. */
  function PortOf(k: Kind): int {
    match k
    case PositionKind => PositionApp
    case TelemetryKind => TelemetryApp
    case NodeInfoKind => NodeInfoApp
    case NeighborInfoKind => NeighborInfoApp
    case TextKind => TextMessageApp
  }

  /** The dispatch table maps exactly one port number to each converter. */
  lemma ConverterTableIsBijective(k: Kind, portnum: int)
    ensures ConverterFor(PortOf(k)) == Some(k)
    ensures ConverterFor(portnum) == Some(k) ==> portnum == PortOf(k)
  {
  }

  /** `envelope.packet.decoded`: protobuf yields an empty `Data` when another variant is set. */
  function DecodedOf(p: MeshPacket): Data {
    match p.variant
    case Decoded(d) => d
    case _ => Data(0, [])
  }

  /** Lines 76-83 of `convert_envelope_to_json`: decode the sub-message (raw UTF-8 for text) and convert it. */
  function Interpret(codec: Codec, kind: Kind, payload: seq<byte>, envelope: ServiceEnvelope): (r: Option<Record>)
    ensures kind == PositionKind ==>
      (r.Some? <==> codec.position(payload).Some?) && (r.Some? ==> r.value.typ == Some("position"))
    ensures kind == TelemetryKind ==>
      (r.Some? <==> codec.telemetry(payload).Some?) &&
      (r.Some? ==> r.value.typ in {None, Some("device_metrics"), Some("environment_metrics")})
    ensures kind == NodeInfoKind ==>
      (r.Some? <==> codec.user(payload).Some?) && (r.Some? ==> r.value.typ == Some("nodeinfo"))
    ensures kind == NeighborInfoKind ==>
      (r.Some? <==> codec.neighborInfo(payload).Some?) && (r.Some? ==> r.value.typ == Some("neighborinfo"))
    ensures kind == TextKind ==>
      (r.Some? <==> codec.utf8(payload).Some?) && (r.Some? ==> r.value.typ == Some("text_message"))
    ensures r.Some? && r.value.typ.Some? ==> r.value.typ.value != "" && r.value.payload != map[]
  {
    match kind
    case PositionKind =>
      (match codec.position(payload) case Some(p) => Some(AsPosition(p)) case None => None)
    case TelemetryKind =>
      (match codec.telemetry(payload) case Some(t) => Some(AsTelemetry(t)) case None => None)
    case NodeInfoKind =>
      (match codec.user(payload) case Some(u) => Some(AsNodeInfo(u)) case None => None)
    case NeighborInfoKind =>
      (match codec.neighborInfo(payload) case Some(n) => Some(AsNeighborInfo(n)) case None => None)
    case TextKind =>
      (match codec.utf8(payload) case Some(s) => Some(AsTextMessage(s, envelope)) case None => None)
  }

  /** `type_ and payload`: a non-empty type name and a non-empty payload. */
  predicate Actionable(r: Record) {
    r.typ.Some? && r.typ.value != "" && r.payload != map[]
  }

  /** The `from`/`sender` header every converted envelope carries. */
  function Header(envelope: ServiceEnvelope): State {
    map["from" := Int(envelope.packet.fromId), "sender" := Str(envelope.gatewayId)]
  }

  /** `convert_envelope_to_json`. */
  function ConvertEnvelope(codec: Codec, envelope: ServiceEnvelope): (r: Result<State, ConvertError>)
    ensures r.Success? ==> "from" in r.value && r.value["from"] == Int(envelope.packet.fromId)
    ensures r.Success? ==> "sender" in r.value && r.value["sender"] == Str(envelope.gatewayId)
    ensures r.Success? ==>
      r.value.Keys == {"from", "sender"} || r.value.Keys == {"from", "sender", "type", "payload"}
    ensures r.Success? && "type" in r.value ==>
      ConverterFor(DecodedOf(envelope.packet).portnum).Some? &&
      r.value["type"].Str? && r.value["type"].s != "" &&
      r.value["payload"].Dict? && r.value["payload"].fields != map[]
    ensures ConverterFor(DecodedOf(envelope.packet).portnum).None? ==> r == Success(Header(envelope))
    ensures r.Failure? <==>
      (var portnum := DecodedOf(envelope.packet).portnum;
       ConverterFor(portnum).Some? &&
       Interpret(codec, ConverterFor(portnum).value, DecodedOf(envelope.packet).payload, envelope).None?)
  {
    var decoded := DecodedOf(envelope.packet);
    match ConverterFor(decoded.portnum)
    case None => Success(Header(envelope))
    case Some(kind) =>
      match Interpret(codec, kind, decoded.payload, envelope)
      case None => Failure(SubMessageDecodeError)
      case Some(rec) =>
        if Actionable(rec) then
          Success(Header(envelope)["type" := Str(rec.typ.value)]["payload" := Dict(rec.payload)])
        else
          Success(Header(envelope))
  }

  /** Every supported sub-message other than an unrecognised telemetry variant yields a typed record. */
  lemma ConvertEnvelopeTyped(codec: Codec, envelope: ServiceEnvelope, kind: Kind, rec: Record)
    requires ConverterFor(DecodedOf(envelope.packet).portnum) == Some(kind)
    requires Interpret(codec, kind, DecodedOf(envelope.packet).payload, envelope) == Some(rec)
    ensures Actionable(rec) <==> rec.typ.Some?
    ensures ConvertEnvelope(codec, envelope) ==
      Success(if rec.typ.Some? then
        Header(envelope)["type" := Str(rec.typ.value)]["payload" := Dict(rec.payload)]
      else Header(envelope))
  {
  }

  // ---------------------------------------------------------------------------
  // Key and nonce preparation (`try_encrypt_envelope`)

  /** The key text that stands for the network-wide default channel key. */
  const DefaultKeyText: string := "1PG7OiApB1nwvP+rz05pAQ=="

  /** The 16 bytes of the default channel key. */
  const DefaultKey: seq<byte> :=
    [0xd4, 0xf1, 0xbb, 0x3a, 0x20, 0x29, 0x07, 0x59, 0xf0, 0xbc, 0xff, 0xab, 0xcf, 0x4e, 0x69, 0x01]

  /** The default key is the base 64 decoding of the default key text. */
  lemma DefaultKeyDecodes()
    ensures Base64.Decode(DefaultKeyText) == Some(DefaultKey)
    ensures |DefaultKey| == 16
  {
    DefaultKeyBytes(DefaultKey);
    EncodeDefaultKeyBytes(DefaultKey);
    Base64.DecodeEncode(DefaultKey);
  }

  /** The sixteen bytes of the default key, one by one. */
  predicate HasDefaultKeyBytes(k: seq<byte>) {
    |k| == 16 &&
    k[0] == 0xd4 && k[1] == 0xf1 && k[2] == 0xbb && k[3] == 0x3a && k[4] == 0x20 && k[5] == 0x29 &&
    k[6] == 0x07 && k[7] == 0x59 && k[8] == 0xf0 && k[9] == 0xbc && k[10] == 0xff && k[11] == 0xab &&
    k[12] == 0xcf && k[13] == 0x4e && k[14] == 0x69 && k[15] == 0x01
  }

  lemma DefaultKeyBytes(k: seq<byte>)
    requires k == DefaultKey
    ensures HasDefaultKeyBytes(k)
  {
  }

  /** Encoding the default key's bytes gives the default key text, one 24-bit group at a time. */
  lemma EncodeDefaultKeyBytes(k: seq<byte>)
    requires HasDefaultKeyBytes(k)
    ensures Base64.Encode(k) == DefaultKeyText
  {
    DefaultKeyGroup0();
    DefaultKeyGroup1();
    DefaultKeyGroup2();
    DefaultKeyGroup3();
    DefaultKeyGroup4();
    DefaultKeyLastByte();
    assert k[15..] == [0x01];
    Base64.EncodeSplit(k[12..]);
    assert k[12..][3..] == k[15..];
    var t4 := Base64.Encode(k[12..]);
    assert t4 == "z05p" + "AQ==";
    Base64.EncodeSplit(k[9..]);
    assert k[9..][3..] == k[12..];
    var t3 := Base64.Encode(k[9..]);
    assert t3 == "vP+r" + t4;
    Base64.EncodeSplit(k[6..]);
    assert k[6..][3..] == k[9..];
    var t2 := Base64.Encode(k[6..]);
    assert t2 == "B1nw" + t3;
    Base64.EncodeSplit(k[3..]);
    assert k[3..][3..] == k[6..];
    var t1 := Base64.Encode(k[3..]);
    assert t1 == "OiAp" + t2;
    Base64.EncodeSplit(k);
    assert Base64.Encode(k) == "1PG7" + t1;
  }

  /** The final byte of the default key. */
  lemma DefaultKeyLastByte()
    ensures Base64.Encode([0x01]) == "AQ=="
  {
    assert 0x01 % 4 == 1 && 0 / 16 == 0 && 0 % 16 == 0 && 0 / 64 == 0 && 0 % 64 == 0;
    assert Base64.Sextets(0x01, 0, 0).0 == 0;
    assert Base64.Sextets(0x01, 0, 0).1 == 16;
    assert Base64.Sextets(0x01, 0, 0).2 == 0;
    assert Base64.Sextets(0x01, 0, 0).3 == 0;
    assert Base64.SextetChar(0) == 'A';
    assert Base64.SextetChar(16) == 'Q';
    assert Base64.EncodeGroup(0x01, 0, 0) == "AQAA";
    assert Base64.Encode([0x01]) == Base64.EncodeGroup(0x01, 0, 0)[..2] + "==";
  }

  /** One 24-bit group of the default key. */
  lemma DefaultKeyGroup0()
    ensures Base64.EncodeGroup(0xd4, 0xf1, 0xbb) == "1PG7"
  {
    assert Base64.Sextets(0xd4, 0xf1, 0xbb) == (53, 15, 6, 59);
    assert Base64.SextetChar(53) == '1';
    assert Base64.SextetChar(15) == 'P';
    assert Base64.SextetChar(6) == 'G';
    assert Base64.SextetChar(59) == '7';
  }

  /** One 24-bit group of the default key. */
  lemma DefaultKeyGroup1()
    ensures Base64.EncodeGroup(0x3a, 0x20, 0x29) == "OiAp"
  {
    assert Base64.Sextets(0x3a, 0x20, 0x29) == (14, 34, 0, 41);
    assert Base64.SextetChar(14) == 'O';
    assert Base64.SextetChar(34) == 'i';
    assert Base64.SextetChar(0) == 'A';
    assert Base64.SextetChar(41) == 'p';
  }

  /** One 24-bit group of the default key. */
  lemma DefaultKeyGroup2()
    ensures Base64.EncodeGroup(0x07, 0x59, 0xf0) == "B1nw"
  {
    assert Base64.Sextets(0x07, 0x59, 0xf0) == (1, 53, 39, 48);
    assert Base64.SextetChar(1) == 'B';
    assert Base64.SextetChar(53) == '1';
    assert Base64.SextetChar(39) == 'n';
    assert Base64.SextetChar(48) == 'w';
  }

  /** One 24-bit group of the default key. */
  lemma DefaultKeyGroup3()
    ensures Base64.EncodeGroup(0xbc, 0xff, 0xab) == "vP+r"
  {
    assert Base64.Sextets(0xbc, 0xff, 0xab) == (47, 15, 62, 43);
    assert Base64.SextetChar(47) == 'v';
    assert Base64.SextetChar(15) == 'P';
    assert Base64.SextetChar(62) == '+';
    assert Base64.SextetChar(43) == 'r';
  }

  /** One 24-bit group of the default key. */
  lemma DefaultKeyGroup4()
    ensures Base64.EncodeGroup(0xcf, 0x4e, 0x69) == "z05p"
  {
    assert Base64.Sextets(0xcf, 0x4e, 0x69) == (51, 52, 57, 41);
    assert Base64.SextetChar(51) == 'z';
    assert Base64.SextetChar(52) == '0';
    assert Base64.SextetChar(57) == '5';
    assert Base64.SextetChar(41) == 'p';
  }

  /** One character of `key.replace("_", "/").replace("-", "+")`. */
  function StandardChar(c: char): char {
    if c == '_' then '/' else if c == '-' then '+' else c
  }

  /** The URL-safe to standard alphabet substitution applied before decoding the key. */
  function NormalizeKeyText(keyText: string): (r: string)
    ensures |r| == |keyText|
    ensures forall i :: 0 <= i < |r| ==> r[i] != '_' && r[i] != '-'
    ensures forall i :: 0 <= i < |r| ==> keyText[i] == '_' ==> r[i] == '/'
    ensures forall i :: 0 <= i < |r| ==> keyText[i] == '-' ==> r[i] == '+'
    ensures forall i :: 0 <= i < |r| ==> keyText[i] != '_' && keyText[i] != '-' ==> r[i] == keyText[i]
  {
    seq(|keyText|, i requires 0 <= i < |keyText| => StandardChar(keyText[i]))
  }

  /** Normalising undoes the section 5 spelling of any standard-alphabet encoding. */
  lemma NormalizeUndoesUrlSafe(bs: seq<byte>)
    ensures NormalizeKeyText(Base64.ToUrlSafe(Base64.Encode(bs))) == Base64.Encode(bs)
    ensures NormalizeKeyText(Base64.Encode(bs)) == Base64.Encode(bs)
  {
    Base64.EncodeAlphabet(bs);
  }

  /** Lines 99-102: decode the key text; the one-byte key `0x01` selects the default key. */
  function ResolveKey(keyText: string): (r: Option<seq<byte>>)
    ensures r.None? <==> Base64.Decode(NormalizeKeyText(keyText)).None?
    ensures Base64.Decode(NormalizeKeyText(keyText)) == Some([0x01]) ==> r == Some(DefaultKey)
    ensures forall k: seq<byte> :: Base64.Decode(NormalizeKeyText(keyText)) == Some(k) && k != [0x01] ==> r == Some(k)
    ensures r.Some? ==> r.value != [0x01]
  {
    match Base64.Decode(NormalizeKeyText(keyText))
    case None => None
    case Some(k) => Some(if k == [0x01] then DefaultKey else k)
  }

  /** A key given in either alphabet resolves to its bytes, unless it is the default-key marker. */
  lemma ResolveKeyOfEncoding(key: seq<byte>)
    requires key != [0x01]
    ensures ResolveKey(Base64.Encode(key)) == Some(key)
    ensures ResolveKey(Base64.ToUrlSafe(Base64.Encode(key))) == Some(key)
  {
    NormalizeUndoesUrlSafe(key);
    Base64.DecodeEncode(key);
  }

  /** The customary key text `AQ==` selects the default key. */
  lemma ShortKeySelectsDefault()
    ensures ResolveKey("AQ==") == Some(DefaultKey)
  {
    assert Base64.Encode([0x01]) == "AQ==";
    Base64.DecodeEncode([0x01]);
    NormalizeUndoesUrlSafe([0x01]);
  }

  /** `Pow256(8)` is 2^64, so every 32-bit field fits in eight bytes. */
  lemma EightBytesHoldUint32(x: uint32)
    ensures x < LittleEndian.Pow256(8)
  {
    assert LittleEndian.Pow256(8) == 0x1_0000_0000_0000_0000;
  }

  /** Lines 104-106: the AES-CTR initial counter block. */
  function Nonce(packetId: uint32, fromId: uint32): (r: seq<byte>)
    ensures |r| == 16
  {
    EightBytesHoldUint32(packetId);
    EightBytesHoldUint32(fromId);
    LittleEndian.Encode(packetId, 8) + LittleEndian.Encode(fromId, 8)
  }

  /** The first half of the nonce is the packet id and the second the sender, little-endian. */
  lemma NonceHalves(packetId: uint32, fromId: uint32)
    ensures LittleEndian.Decode(Nonce(packetId, fromId)[..8]) == packetId
    ensures LittleEndian.Decode(Nonce(packetId, fromId)[8..]) == fromId
  {
    EightBytesHoldUint32(packetId);
    EightBytesHoldUint32(fromId);
    var n := Nonce(packetId, fromId);
    assert n[..8] == LittleEndian.Encode(packetId, 8);
    assert n[8..] == LittleEndian.Encode(fromId, 8);
    LittleEndian.DecodeEncode(packetId, 8);
    LittleEndian.DecodeEncode(fromId, 8);
  }

  /** Distinct (packet id, sender) pairs give distinct nonces. */
  lemma NonceInjective(a: uint32, b: uint32, c: uint32, d: uint32)
    requires Nonce(a, b) == Nonce(c, d)
    ensures a == c && b == d
  {
    NonceHalves(a, b);
    NonceHalves(c, d);
  }

  /** Swapping the packet id and the sender changes the nonce whenever they differ. */
  lemma NonceSwapDiffers(packetId: uint32, fromId: uint32)
    requires packetId != fromId
    ensures Nonce(packetId, fromId) != Nonce(fromId, packetId)
  {
    if Nonce(packetId, fromId) == Nonce(fromId, packetId) {
      NonceInjective(packetId, fromId, fromId, packetId);
    }
  }

  /** `getattr(envelope.packet, "encrypted")`: empty when another variant is set. */
  function EncryptedOf(p: MeshPacket): seq<byte> {
    match p.variant
    case Encrypted(bs) => bs
    case _ => []
  }

  /** `try_encrypt_envelope`: decrypt the packet and replace its payload by the decoded `Data`. */
  function DecryptEnvelope(codec: Codec, cipher: Cipher, envelope: ServiceEnvelope, keyText: string)
    : (r: Result<ServiceEnvelope, DecryptError>)
    ensures ResolveKey(keyText).None? ==> r == Failure(KeyDecodeError)
    ensures r.Success? ==>
      var p := envelope.packet;
      var plain := cipher(ResolveKey(keyText).value, Nonce(p.id, p.fromId), EncryptedOf(p));
      plain.Some? && codec.data(plain.value).Some? &&
      r.value == envelope.(packet := p.(variant := Decoded(codec.data(plain.value).value)))
  {
    match ResolveKey(keyText)
    case None => Failure(KeyDecodeError)
    case Some(key) =>
      var p := envelope.packet;
      match cipher(key, Nonce(p.id, p.fromId), EncryptedOf(p))
      case None => Failure(CipherError)
      case Some(plain) =>
        match codec.data(plain)
        case None => Failure(PlaintextDecodeError)
        case Some(d) => Success(envelope.(packet := p.(variant := Decoded(d))))
  }

  /** A counter-mode cipher: applying it twice with the same key and counter is the identity. */
  ghost predicate Involutive(cipher: Cipher) {
    forall key, nonce, bs :: cipher(key, nonce, bs).Some? ==>
      cipher(key, nonce, cipher(key, nonce, bs).value) == Some(bs)
  }

  /**
   * Decrypting a packet that was encrypted under its own (packet id, sender) nonce and the
   * key the key text resolves to recovers the original `Data`.
   */
  lemma DecryptRecoversPlaintext(codec: Codec, cipher: Cipher, envelope: ServiceEnvelope, keyText: string,
                                 plain: seq<byte>, data: Data)
    requires Involutive(cipher)
    requires ResolveKey(keyText).Some?
    requires var p := envelope.packet;
      cipher(ResolveKey(keyText).value, Nonce(p.id, p.fromId), plain).Some? &&
      p.variant == Encrypted(cipher(ResolveKey(keyText).value, Nonce(p.id, p.fromId), plain).value)
    requires codec.data(plain) == Some(data)
    ensures DecryptEnvelope(codec, cipher, envelope, keyText) ==
      Success(envelope.(packet := envelope.packet.(variant := Decoded(data))))
  {
  }
}

=== FILE: readings.dfy ===
/**
 * What the entities read from a coordinator's state: a section of the state (one
 * converter type such as `device_metrics`) guarded by the walrus-truthiness test
 * `if tel := data.get(section)`, and the values inside it.
 *
 * Python raises when `.get` is called on a value that is not a dictionary, and when a
 * missing or non-numeric value is compared with `0`; the predicates below say when an
 * entity property can be evaluated without raising, and the entity functions require them.
 */
module Readings {
  import opened Wrappers
  import opened Values

  /** `data.get(name)` when it is truthy, i.e. the guard `if section := data.get(name)`. */
  function Section(data: State, name: string): (r: Option<Value>)
    ensures r.Some? <==> name in data && Truthy(data[name])
    ensures r.Some? ==> r.value == data[name]
  {
    match Get(data, name)
    case Some(v) => if Truthy(v) then Some(v) else None
    case None => None
  }

  /** `section.get(key)` does not raise: a truthy section is a dictionary. */
  predicate Gettable(data: State, name: string) {
    Section(data, name).Some? ==> Section(data, name).value.Dict?
  }

  /** `section.get(key) > 0` (or `>= 0`) does not raise: the key is present and numeric. */
  predicate Comparable(data: State, name: string, key: string) {
    Section(data, name).Some? ==>
      Section(data, name).value.Dict? &&
      key in Section(data, name).value.fields &&
      IsNumber(Section(data, name).value.fields[key])
  }

  /** The attributes of a present section, or None when the section is absent or falsy. */
  function Fields(data: State, name: string): (r: Option<State>)
    requires Gettable(data, name)
    ensures r.Some? <==> Section(data, name).Some?
    ensures r.Some? ==> data[name] == Dict(r.value)
  {
    match Section(data, name)
    case Some(v) => Some(v.fields)
    case None => None
  }

  /**
   * The loop `for attr in attrs: if value := section.get(attr): result[attr] = value`:
   * exactly the listed attributes with truthy values, copied unchanged.
   */
  function TruthyAttributes(m: State, attrs: seq<string>): (r: State)
    ensures forall k :: k in r <==> k in attrs && k in m && Truthy(m[k])
    ensures forall k :: k in r ==> r[k] == m[k]
    decreases |attrs|
  {
    if attrs == [] then map[]
    else
      var rest := TruthyAttributes(m, attrs[..|attrs| - 1]);
      var a := attrs[|attrs| - 1];
      assert forall k :: k in attrs <==> k in attrs[..|attrs| - 1] || k == a;
      if a in m && Truthy(m[a]) then rest[a := m[a]] else rest
  }

  /** A property of the entities reads only its own section: states that agree there read alike. */
  lemma SectionFrame(d1: State, d2: State, name: string)
    requires Get(d1, name) == Get(d2, name)
    ensures Section(d1, name) == Section(d2, name)
    ensures Gettable(d1, name) <==> Gettable(d2, name)
    ensures forall key :: Comparable(d1, name, key) <==> Comparable(d2, name, key)
  {
  }
}

=== FILE: sensor.dfy ===
/**
 * The sensor entities of `sensor.py`: each `native_value` is a function of the
 * coordinator's state. Device and environment metrics use a positivity guard
 * (battery additionally clamps at 100), air-time and channel utilisation use a
 * truthiness guard, and the neighbour count admits zero.
 */
module Sensor {
  import opened Wrappers
  import opened Values
  import opened Readings

  const DeviceMetrics: string := "device_metrics"
  const EnvironmentMetrics: string := "environment_metrics"
  const NeighborInfo: string := "neighborinfo"
  const NodeInfo: string := "nodeinfo"

  /** The value a `> 0` or `>= 0` guard compares, in a present section. */
  function Metric(data: State, name: string, key: string): (v: Value)
    requires Comparable(data, name, key) && Section(data, name).Some?
    ensures IsNumber(v) && v == data[name].fields[key]
  {
    Section(data, name).value.fields[key]
  }

  /** `if (value := section.get(key)) > 0: return value`. */
  function Positive(data: State, name: string, key: string): (r: Option<Value>)
    requires Comparable(data, name, key)
    ensures r.Some? <==> Section(data, name).Some? && Num(Metric(data, name, key)) > 0.0
    ensures r.Some? ==> r.value == Metric(data, name, key) && IsNumber(r.value) && Num(r.value) > 0.0
  {
    if Section(data, name).Some? && Num(Metric(data, name, key)) > 0.0 then Some(Metric(data, name, key))
    else None
  }

  /** `if value := section.get(key): return value`. */
  function TruthyValue(data: State, name: string, key: string): (r: Option<Value>)
    requires Gettable(data, name)
    ensures r.Some? <==> (Fields(data, name).Some? && key in Fields(data, name).value &&
      Truthy(Fields(data, name).value[key]))
    ensures r.Some? ==> r.value == data[name].fields[key] && Truthy(r.value)
  {
    match Fields(data, name)
    case None => None
    case Some(m) => if key in m && Truthy(m[key]) then Some(m[key]) else None
  }

  /** `_TelemetryBattery.native_value`: a positive level, clamped to 100. */
  function Battery(data: State): (r: Option<Value>)
    requires Comparable(data, DeviceMetrics, "battery_level")
    ensures r.Some? <==> Section(data, DeviceMetrics).Some? && Num(Metric(data, DeviceMetrics, "battery_level")) > 0.0
    ensures r.Some? ==> IsNumber(r.value) && 0.0 < Num(r.value) <= 100.0
    ensures r.Some? ==> var v := Num(Metric(data, DeviceMetrics, "battery_level"));
      Num(r.value) == if v > 100.0 then 100.0 else v
    ensures r.Some? && Num(Metric(data, DeviceMetrics, "battery_level")) <= 100.0 ==>
      r.value == Metric(data, DeviceMetrics, "battery_level")
    ensures r.Some? && Num(Metric(data, DeviceMetrics, "battery_level")) > 100.0 ==> r.value == Int(100)
  {
    match Positive(data, DeviceMetrics, "battery_level")
    case None => None
    case Some(v) => Some(if Num(v) > 100.0 then Int(100) else v)
  }

  /** `_TelemetryVoltage.native_value`: reported only when positive. */
  function Voltage(data: State): (r: Option<Value>)
    requires Comparable(data, DeviceMetrics, "voltage")
    ensures r.Some? <==> Section(data, DeviceMetrics).Some? && Num(Metric(data, DeviceMetrics, "voltage")) > 0.0
    ensures r.Some? ==> r.value == Metric(data, DeviceMetrics, "voltage") && Num(r.value) > 0.0
  {
    Positive(data, DeviceMetrics, "voltage")
  }

  /** `_TelemetryAirtimelUtil.native_value`: any truthy value, negative ones included. */
  function AirUtilTx(data: State): (r: Option<Value>)
    requires Gettable(data, DeviceMetrics)
    ensures r.Some? <==> (Fields(data, DeviceMetrics).Some? && "air_util_tx" in Fields(data, DeviceMetrics).value &&
      Truthy(Fields(data, DeviceMetrics).value["air_util_tx"]))
    ensures r.Some? ==> r.value == data[DeviceMetrics].fields["air_util_tx"] && Truthy(r.value)
  {
    TruthyValue(data, DeviceMetrics, "air_util_tx")
  }

  /** `_TelemetryChannelUtil.native_value`: any truthy value, negative ones included. */
  function ChannelUtilization(data: State): (r: Option<Value>)
    requires Gettable(data, DeviceMetrics)
    ensures r.Some? <==> (Fields(data, DeviceMetrics).Some? && "channel_utilization" in Fields(data, DeviceMetrics).value &&
      Truthy(Fields(data, DeviceMetrics).value["channel_utilization"]))
    ensures r.Some? ==> r.value == data[DeviceMetrics].fields["channel_utilization"] && Truthy(r.value)
  {
    TruthyValue(data, DeviceMetrics, "channel_utilization")
  }

  /** `_Neighbors.native_value`: a non-negative count, so zero neighbours is reported. */
  function NeighborsCount(data: State): (r: Option<Value>)
    requires Comparable(data, NeighborInfo, "neighbors_count")
    ensures r.Some? <==> Section(data, NeighborInfo).Some? && Num(Metric(data, NeighborInfo, "neighbors_count")) >= 0.0
    ensures r.Some? ==> r.value == Metric(data, NeighborInfo, "neighbors_count") && Num(r.value) >= 0.0
  {
    if Section(data, NeighborInfo).Some? && Num(Metric(data, NeighborInfo, "neighbors_count")) >= 0.0 then
      Some(Metric(data, NeighborInfo, "neighbors_count"))
    else None
  }

  /** `_TelemetryTemperature.native_value`: reported only when positive, so frost reads as unknown. */
  function Temperature(data: State): (r: Option<Value>)
    requires Comparable(data, EnvironmentMetrics, "temperature")
    ensures r.Some? <==> Section(data, EnvironmentMetrics).Some? && Num(Metric(data, EnvironmentMetrics, "temperature")) > 0.0
    ensures r.Some? ==> r.value == Metric(data, EnvironmentMetrics, "temperature") && Num(r.value) > 0.0
  {
    Positive(data, EnvironmentMetrics, "temperature")
  }

  /** `_TelemetryRelativeHumidity.native_value`: reported only when positive. */
  function RelativeHumidity(data: State): (r: Option<Value>)
    requires Comparable(data, EnvironmentMetrics, "relative_humidity")
    ensures r.Some? <==> Section(data, EnvironmentMetrics).Some? && Num(Metric(data, EnvironmentMetrics, "relative_humidity")) > 0.0
    ensures r.Some? ==> r.value == Metric(data, EnvironmentMetrics, "relative_humidity") && Num(r.value) > 0.0
  {
    Positive(data, EnvironmentMetrics, "relative_humidity")
  }

  /** `_TelemetryBarometricPressure.native_value`: reported only when positive. */
  function BarometricPressure(data: State): (r: Option<Value>)
    requires Comparable(data, EnvironmentMetrics, "barometric_pressure")
    ensures r.Some? <==> Section(data, EnvironmentMetrics).Some? && Num(Metric(data, EnvironmentMetrics, "barometric_pressure")) > 0.0
    ensures r.Some? ==> r.value == Metric(data, EnvironmentMetrics, "barometric_pressure") && Num(r.value) > 0.0
  {
    Positive(data, EnvironmentMetrics, "barometric_pressure")
  }

  /** `_TelemetryGasResistance.native_value`: reported only when positive. */
  function GasResistance(data: State): (r: Option<Value>)
    requires Comparable(data, EnvironmentMetrics, "gas_resistance")
    ensures r.Some? <==> Section(data, EnvironmentMetrics).Some? && Num(Metric(data, EnvironmentMetrics, "gas_resistance")) > 0.0
    ensures r.Some? ==> r.value == Metric(data, EnvironmentMetrics, "gas_resistance") && Num(r.value) > 0.0
  {
    Positive(data, EnvironmentMetrics, "gas_resistance")
  }

  /**
   * `Coordinator.last_update`, the value of `_LastUpdate.native_value`, before its conversion
   * to a `datetime`: the stored timestamp, or None before the first accepted message.
   */
  function LastUpdate(data: State): (r: Option<Value>)
    ensures r.None? <==> "last_update" !in data
    ensures r.Some? ==> r.value == data["last_update"]
  {
    Get(data, "last_update")
  }

  /** `_LastUpdate.extra_state_attributes`: the truthy ones of `id`, `longname`, `shortname`. */
  function LastUpdateAttributes(data: State): (r: State)
    requires Gettable(data, NodeInfo)
    ensures r.Keys <= {"id", "longname", "shortname"}
    ensures Fields(data, NodeInfo).None? ==> r == map[]
    ensures Fields(data, NodeInfo).Some? ==> var m := Fields(data, NodeInfo).value;
      (forall k :: k in r <==> k in {"id", "longname", "shortname"} && k in m && Truthy(m[k])) &&
      (forall k :: k in r ==> r[k] == m[k])
  {
    match Fields(data, NodeInfo)
    case None => map[]
    case Some(m) => TruthyAttributes(m, ["id", "longname", "shortname"])
  }

  /** The clamp is the only difference between the battery reading and its positive guard. */
  lemma BatteryIsClampedPositive(data: State)
    requires Comparable(data, DeviceMetrics, "battery_level")
    ensures Battery(data).Some? <==> Positive(data, DeviceMetrics, "battery_level").Some?
    ensures Battery(data).Some? ==>
      var v := Num(Positive(data, DeviceMetrics, "battery_level").value);
      Num(Battery(data).value) == if v > 100.0 then 100.0 else v
  {
  }

  /**
   * The truthiness guard of the utilisation sensors and the positivity guard of the other
   * metrics disagree exactly on negative values: a negative utilisation is reported.
   */
  lemma UtilisationReportsNegatives(data: State, x: real)
    requires Comparable(data, DeviceMetrics, "air_util_tx")
    requires DeviceMetrics in data && data[DeviceMetrics].Dict?
    requires "air_util_tx" in data[DeviceMetrics].fields && data[DeviceMetrics].fields["air_util_tx"] == Float(x)
    ensures AirUtilTx(data).Some? <==> x != 0.0
    ensures Positive(data, DeviceMetrics, "air_util_tx").Some? <==> x > 0.0
  {
  }

  /** All device-metric sensors read only the `device_metrics` section. */
  lemma DeviceMetricsFrame(d1: State, d2: State)
    requires Get(d1, DeviceMetrics) == Get(d2, DeviceMetrics)
    requires Comparable(d1, DeviceMetrics, "battery_level") && Comparable(d1, DeviceMetrics, "voltage")
    ensures Comparable(d2, DeviceMetrics, "battery_level") && Comparable(d2, DeviceMetrics, "voltage")
    ensures Battery(d1) == Battery(d2) && Voltage(d1) == Voltage(d2)
    ensures AirUtilTx(d1) == AirUtilTx(d2) && ChannelUtilization(d1) == ChannelUtilization(d2)
  {
    SectionFrame(d1, d2, DeviceMetrics);
  }

  /** All environment sensors read only the `environment_metrics` section. */
  lemma EnvironmentMetricsFrame(d1: State, d2: State)
    requires Get(d1, EnvironmentMetrics) == Get(d2, EnvironmentMetrics)
    requires Comparable(d1, EnvironmentMetrics, "temperature")
    requires Comparable(d1, EnvironmentMetrics, "relative_humidity")
    requires Comparable(d1, EnvironmentMetrics, "barometric_pressure")
    requires Comparable(d1, EnvironmentMetrics, "gas_resistance")
    ensures Comparable(d2, EnvironmentMetrics, "temperature") && Temperature(d1) == Temperature(d2)
    ensures Comparable(d2, EnvironmentMetrics, "relative_humidity") && RelativeHumidity(d1) == RelativeHumidity(d2)
    ensures Comparable(d2, EnvironmentMetrics, "barometric_pressure") && BarometricPressure(d1) == BarometricPressure(d2)
    ensures Comparable(d2, EnvironmentMetrics, "gas_resistance") && GasResistance(d1) == GasResistance(d2)
  {
    SectionFrame(d1, d2, EnvironmentMetrics);
  }
}

=== FILE: values.dfy ===
/**
 * The dynamically typed values that flow through the integration: the JSON-like
 * dictionaries built by the packet converters, merged by the coordinator and read
 * by the entities. Python's truthiness and `==` are defined here once.
 */
module Values {
  import opened Wrappers

  /** A Python value as it can appear in a JSON object. */
  datatype Value =
    | Null
    | Bool(b: bool)
    | Int(i: int)
    | Float(f: real)
    | Str(s: string)
    | List(items: seq<Value>)
    | Dict(fields: map<string, Value>)

  /** A dictionary with string keys: a converter payload, a per-type map or a device state. */
  type State = map<string, Value>

  /** Python's `bool(v)`: `None`, `False`, zero and empty containers are falsy. */
  predicate Truthy(v: Value) {
    match v
    case Null => false
    case Bool(b) => b
    case Int(i) => i != 0
    case Float(f) => f != 0.0
    case Str(s) => s != []
    case List(xs) => xs != []
    case Dict(m) => m != map[]
  }

  /** Values that Python orders against the integer `0` without raising. */
  predicate IsNumber(v: Value) {
    v.Bool? || v.Int? || v.Float?
  }

  /** The numeric value of an int, float or bool (`True` is 1). */
  function Num(v: Value): real
    requires IsNumber(v)
  {
    match v
    case Bool(b) => if b then 1.0 else 0.0
    case Int(i) => i as real
    case Float(f) => f
  }

  /**
   * Python's `a == b` on the scalars the core compares: ints, floats and bools compare by
   * numeric value. Numbers nested inside lists and dicts are compared without coercion.
   */
  predicate Same(a: Value, b: Value) {
    if IsNumber(a) && IsNumber(b) then Num(a) == Num(b) else a == b
  }

  /** Python's `==` between the results of two `dict.get` calls (a missing key reads as `None`). */
  predicate SameOpt(a: Option<Value>, b: Option<Value>) {
    match (a, b)
    case (None, None) => true
    case (Some(x), Some(y)) => Same(x, y)
    case (None, Some(y)) => y == Null
    case (Some(x), None) => x == Null
  }

  /** `d.get(k)`. */
  function Get(d: State, k: string): (r: Option<Value>)
    ensures r.Some? <==> k in d
    ensures r.Some? ==> r.value == d[k]
  {
    if k in d then Some(d[k]) else None
  }

  /** `{**base, **update}`: the shallow merge used for per-type maps and for the device state. */
  function Merge(base: State, update: State): (r: State)
    ensures r.Keys == base.Keys + update.Keys
    ensures forall k :: k in update ==> r[k] == update[k]
    ensures forall k :: k in base && k !in update ==> r[k] == base[k]
  {
    base + update
  }

  /** Merging the same dictionary a second time changes nothing. */
  lemma MergeIdempotent(base: State, update: State)
    ensures Merge(Merge(base, update), update) == Merge(base, update)
  {
  }

  /** Merges of dictionaries with disjoint keys can be applied in either order. */
  lemma MergeCommutesOnDisjointKeys(base: State, a: State, b: State)
    requires a.Keys !! b.Keys
    ensures Merge(Merge(base, a), b) == Merge(Merge(base, b), a)
  {
  }
}

=== FILE: wrappers.dfy ===
/** Failure-carrying datatypes used throughout the model. */
module Wrappers {

  /** A value that may be missing: Python's `None` versus a present value. */
  datatype Option<+T> = None | Some(value: T)

  /** Either a value or the error that the Python code would raise instead. */
  datatype Result<+R, +E> = Success(value: R) | Failure(error: E)
}
